=== FILE: README.md ===
# li3_frontender asset naming, modelled in Dafny

li3_frontender is a Lithium (PHP) plugin that builds the JavaScript and CSS
assets of an application. This project models the two parts of it that are
pure naming and path logic.

- **`Manifest`** (`Manifest.php`) turns a configured manifest into an
  ordered map from input path to output path.
  - Configured filenames get their type's extension (`appendFileType`).
  - The input root is `root/type/` and the output root is
    `root/type/compiled/`.
  - Each asset is either copied or compiled, with `coffee` or `plessc`.
  - Every output, copied or compiled, is appended to the process-wide list
    `static::$processed`. An input that the compile test matches is skipped
    when its output is already on that list; copies are never skipped.
  - With `mangle` on, `compile()` returns one merged bundle named
    `out_path . name . cacheString . "." . type`. Otherwise it returns every
    output in mapping order.
- **The `Assets` template helper** (`extensions/helper/Assets.php`) handles
  `style()` and `script()` requests.
  - The assets root is normalised.
  - Each referenced file is resolved to a source path and a display name.
  - The files' modification times and sizes are summed.
  - The helper names the cached bundle and its link, either the bundle name
    with a sha1 query string or a name made from sha1, size and mtime.
  - It rebuilds the cached file when that file is missing or PHP-falsy
    (the empty string or `"0"`).
  - It derives the prefix that older copies are purged by.
  - Outside production each collected file is linked on its own, but only
    when its stats are found again under the path Assetic rebuilds from
    `dirname` and `basename`. A reference written with a leading `/`
    resolves to a path with a doubled slash, which `dirname` collapses, so
    such a file gets no link unless another reference resolves to the
    collapsed path.

Modules, one per file:

| module | file | contents |
|---|---|---|
| `Results` | results.dfy | `Option` and `Result` |
| `Strings` | strings.dfy | prefixes and suffixes, PHP truthiness of strings, substring search, split at first or last character, decimal rendering, ASCII lower case |
| `Pcre` | pcre.dfy | the regular expressions the code matches, with PCRE's `$` (which also matches before a final newline) and the `i` and `s` modifiers |
| `PathInfo` | path_info.dfy | `pathinfo(..., PATHINFO_EXTENSION)`, `basename` and `dirname` |
| `PhpArray` | php_array.dfy | PHP associative arrays as ordered entries with unique keys |
| `Library` | library.dfy | the plugin's configuration, as read by `Manifest` and by the helper |
| `Manifests` | manifest.dfy | construction, `appendFileType`, the roots, `mangledFilename`, `filenameMappings` |
| `ManifestBuild` | manifest_build.dfy | `needsCompileStep`, `copyOrCompile`, `compileFile`, `copy`, `merge`, `compile` |
| `AssetsCache` | assets_cache.dfy | `buildHelper`'s naming and recache decision, `setCache` |
| `AssetsHelper` | assets_helper.dfy | `_init`'s root, `specialExt`, `_runAssets`, `style`/`script` |

Effects of the source become data or parameters:

- External programs (`coffee`, `plessc`, `cp`, `uglifyjs`, `uglifycss`) are
  `Command` values.
  - Their outcome is an exit-status function `status: Command -> int`.
  - Every `exit(1)` is a `Fatal` failure.
- The process-wide `$processed` list is threaded through `Compile` as a
  sequence.
- `Compile` takes a `Decision`: `AsWritten` is the source's
  `needsCompileStep`, and `ByExtension` is the corrected test described
  under Findings.
- `file_exists` and `stat` are one map from path to `Stat`.
- The cache directory is a map from path to file content.
- sha1 (`String::hash`) is an uninterpreted function `string -> string`.
- Assetic's rendering (`dump()`) is a function of the asset paths.
- The HTML helper's output is represented by the link target it is given.

## Model

| member | source | states |
|---|---|---|
| `Manifests.AppendFileType` | Manifest.php:147-155 | The path comes back unchanged exactly when its extension is allowed: `js`/`css`, plus `coffee`/`less` with `allow_any`. Otherwise it is the path followed by `.` and the type. |
| `Manifests.AppendFileTypeIdempotent` | Manifest.php:147-155 | For type `js` or `css` the result always has an allowed extension, so applying `appendFileType` to its own result changes nothing. |
| `Manifests.EnsureTrailingSlash` | Manifest.php:61-65 | After the constructor's check, the root matches `/\/$/`. It comes back unchanged exactly when it already matched, and otherwise gets `/` appended. It ends in `/` unless the root ended in a newline. |
| `Manifests.NewManifest` | Manifest.php:47-66 | Construction fails with "manifest type/name not found" exactly when the configuration has no such manifest. Otherwise the fields come from the configuration, and `out_path` is `root/type/compiled/`. `in_path` starts with `root/type` and matches `/\/$/`; for js and css it is exactly `root/type/`. |
| `Manifests.MangledFilename` | Manifest.php:100-103 | The bundle path starts with `out_path . name . cacheString`, ends with `.` plus the type, and has nothing else in between. |
| `Manifests.MangledFilenameShape` | Manifest.php:100-103 | For a js or css manifest the bundle lies under `out_path`, and its `pathinfo` extension is the type, whatever the name and cache string contain. |
| `Manifests.MappingsOf` | Manifest.php:111-120 | The mapping has unique keys. Every entry maps `in_path` plus a normalised name to `appendFileType(out_path` plus that name`)`, and for js/css that name has an allowed extension. |
| `Manifests.FilenameMappings` | Manifest.php:111-120 | The mapping of the configured filenames has unique keys and at most one entry per filename. Its keys are the normalised input paths in order of first occurrence, and every entry is consistent with the manifest. |
| `Manifests.MappingsKeys` | Manifest.php:111-120 | The keys are the normalised input paths, deduplicated in order of first occurrence, so there are never more mappings than configured filenames. |
| `Manifests.MappingShape` | Manifest.php:113-118 | Each mapping reads a name `n` below `in_path` and writes below `out_path`, to `n` or to `n.type`. For js/css the output has extension `js` or `css`. |
| `PhpArray.Put` | Manifest.php:117 | `$mappings[$in] = $out` keeps an existing key where it is and appends a new key at the end. Keys stay unique, and the new entry is present. |
| `PathInfo.Extension` | Manifest.php:148 | The extension contains no `.` or `/`, and when non-empty, `.` plus it ends the path. |
| `PathInfo.ExtensionOfAppended` | Manifest.php:152 | Appending `.type` to any path makes the type its extension. |
| `ManifestBuild.CompileFile` | Manifest.php:167-190 | "unknown file type" happens exactly when the extension is neither `coffee` nor `less`. For those two extensions, `coffee` (or `plessc`) on the input runs and succeeds exactly when it exits with 0, and a non-zero exit is reported naming that command. |
| `ManifestBuild.CompileFileOfAppended` | Manifest.php:173-190 | Any name given the extension `coffee` or `less` is compiled by `coffee` or `plessc` respectively, with the outcome decided by that command's exit status. |
| `ManifestBuild.Copy` | Manifest.php:198-205 | A copy succeeds exactly when `cp` exits with 0, and otherwise reports source and destination. |
| `ManifestBuild.CopyOrCompile` | Manifest.php:122-133 | As written: when the input path contains `.coffee` or `.less`, an output not yet processed goes to `compileFile` and a processed one is skipped. Every other input is copied, with exactly `copy`'s outcome, so a failed `cp` is `CopyFailed`. It aborts with "unknown file type" exactly when the match succeeds on an unprocessed input whose extension is neither `coffee` nor `less`. |
| `ManifestBuild.CopyOrCompileFixed` | Manifest.php:122-133 | The same steps with the decision made on the extension. It never aborts with an unknown file type. It hands `coffee`/`less` inputs whose output is not yet processed to `compileFile`, skips processed ones and copies the rest, with exactly `copy`'s outcome. |
| `ManifestBuild.NeedsCompileStep` | Manifest.php:157-159 | The unanchored test: `.coffee` or `.less` occurs anywhere in the input path. It holds for every file whose extension is `coffee` or `less`, so the corrected decision only narrows it. |
| `ManifestBuild.FixedAgreesWhereOriginalActs` | Manifest.php:122-133 | Wherever the original neither aborts with an unknown file type nor skips, the corrected version gives the same result. |
| `ManifestBuild.UnanchoredMatchAbortsPlainFiles` | Manifest.php:157-159 | Under a directory whose path contains `.coffee`, a plain `.js` file not yet processed makes the original abort. The corrected version copies it. |
| `ManifestBuild.CoffeeRootAbortsCompile` | Manifest.php:75-84 | Under the root `/w.coffee`, compiling the js manifest `["x.js"]` as written reads `/w.coffee/js/x.js` and aborts with "unknown file type". With the corrected decision it does not. |
| `ManifestBuild.MergeCommand` | Manifest.php:209-217 | A js bundle is merged by `uglifyjs`, a css bundle by `uglifycss`. |
| `ManifestBuild.Merge` | Manifest.php:207-230 | An unknown type fails exactly when the type is neither js nor css. For js and css, `merge` succeeds exactly when its `uglifyjs` or `uglifycss` command over the given files, in order, into the bundle path, exits with 0. A non-zero exit is reported naming that command. |
| `ManifestBuild.CompileEach` | Manifest.php:78-84 | When simulating, the loop runs nothing and cannot fail. |
| `ManifestBuild.CompileEachRuns` | Manifest.php:78-84 | Every program the loop runs belongs to one of its entries. A `cp` copies an entry that the decision does not compile. A compiler is the one for its input, run on an entry that the decision compiles and whose output was not processed before the loop. No merge is run by the loop. |
| `ManifestBuild.CompileEachCovers` | Manifest.php:78-84 | Nothing is left out: each entry not compiled was copied, and each compiled entry whose output was not yet processed when the loop reached it had its compiler run. |
| `ManifestBuild.CompileEachSucceeds` | Manifest.php:187-203 | A real run of the loop succeeds exactly when every entry's step succeeds against the processed list it meets. A failing compiler or `cp` ends the run with `exit(1)`. |
| `ManifestBuild.CompileEachFirstFailure` | Manifest.php:187-203 | A failed real run reports the error of the first entry whose step fails. Every step before it succeeded. |
| `ManifestBuild.CompileEachExitsZero` | Manifest.php:187-203 | Every program a successful real run of the loop ran exited with status 0. |
| `ManifestBuild.FixedCompileKnowsFileTypes` | Manifest.php:75-92 | With the corrected decision, `compile` never aborts with "unknown file type". |
| `ManifestBuild.Compile` | Manifest.php:75-92 | On success every mapping output is appended to `$processed` in order. The result is the bundle path alone when mangling and the outputs in mapping order otherwise. Simulating always succeeds and runs nothing. |
| `ManifestBuild.CompileSucceeds` | Manifest.php:75-92 | A real `compile` succeeds exactly when the loop does and, when mangling, the merge exits with 0. A failure is the loop's error, or else the merge's. Every program a successful run ran exited with 0. |
| `ManifestBuild.CompileMergesOutputs` | Manifest.php:85-88 | A real mangled run ends with the one merge of every mapping output, in mapping order, into the bundle path. Nothing before it merges. |
| `ManifestBuild.SimulateSameResult` | Manifest.php:75-92 | A successful real run returns the same paths, and leaves the same processed list, as a simulated one. |
| `ManifestBuild.CompileMangledOutput` | Manifest.php:85-88 | With `mangle`, exactly one path comes back. It is under `out_path` and, for js/css, has the type as extension. |
| `ManifestBuild.CompileUnmangledOutputs` | Manifest.php:89-91 | Without `mangle`, there are never more paths than configured filenames. Each lies under `out_path` and, for js/css, is a `.js` or `.css` file. |
| `ManifestBuild.RecompileRunsNoCompiler` | Manifest.php:82 | Compiling the same manifest again with the processed list the first run left starts no compiler, as written and corrected alike. |
| `Pcre.MatchAltAtEnd` | extensions/helper/Assets.php:308 | A match is a suffix of the subject, not counting one final newline. Lowered, it is any character followed by one of the two words. |
| `Pcre.MatchAltAtEndMeaning` | extensions/helper/Assets.php:134 | The pattern matches exactly when `$` can succeed right after any character followed by one of the words, ignoring ASCII case. |
| `AssetsHelper.NormalizeRoot` | extensions/helper/Assets.php:50-51 | A root ending in `/` loses exactly that one character; any other root is kept. |
| `AssetsHelper.NormalizeRootOnce` | extensions/helper/Assets.php:50-51 | Only one slash goes. The normalised root ends in `/` exactly when the configured root ended in `//`. |
| `AssetsHelper.AssetBase` | extensions/helper/Assets.php:50-54 | The styles and scripts directories are the root joined to `css/` or `js/` by one `/`. A root already ending in `/` is used as it is. |
| `AssetsHelper.SpecialExt` | extensions/helper/Assets.php:306-315 | A special match is at least five characters long and ends the name, not counting one final newline. |
| `AssetsHelper.StyleOrScript` | extensions/helper/Assets.php:134 | `preg_match("/(.css\|.js)$/is", $file)`, the second test that keeps a name as given. |
| `AssetsHelper.StyleOrScriptMeaning` | extensions/helper/Assets.php:134 | The test passes exactly when some position where `$` succeeds follows any one character and then `css` or `js`, ignoring ASCII case. |
| `AssetsHelper.Resolve` | extensions/helper/Assets.php:129-139 | Special names and names ending in any character plus `css`/`js` are used as given. Others get `.` plus the type in both path and display name, and the path is always the base plus the display name. |
| `AssetsHelper.ResolvedIsRecognised` | extensions/helper/Assets.php:133-139 | Every display name matches `specialExt` or the `(.css\|.js)$` pattern. |
| `AssetsHelper.ResolveIdempotent` | extensions/helper/Assets.php:133-139 | Resolving a display name again leaves it unchanged. |
| `AssetsHelper.Gather` | extensions/helper/Assets.php:127-187 | The loop succeeds exactly when every resolved path exists, and otherwise reports a missing path. Each file becomes either a direct link or a collected asset. Without direct links (production or compress) there are none. The per-path stats it records are pinned by `GatherPerFile`. |
| `AssetsHelper.GatherPerFile` | extensions/helper/Assets.php:147-149 | The per-path entries of `$stats` (the `modified` and `size` totals aside) are exactly the resolved paths of the references, each holding that file's own stat. This is the set the `isset` test later consults. |
| `AssetsHelper.GatherAssetsHaveStats` | extensions/helper/Assets.php:148-149 | Every collected asset has its own stat recorded under the path it was collected under. |
| `AssetsHelper.GatherCollectsAll` | extensions/helper/Assets.php:180-185 | Without direct links every reference's path is collected, in reference order. |
| `AssetsHelper.GatherJoinsNames` | extensions/helper/Assets.php:180 | Without direct links the concatenated filename is every reference's raw name, joined in order. |
| `AssetsHelper.GatherSplitsDirect` | extensions/helper/Assets.php:157-185 | With direct links exactly the `less`/`coffee` references are collected, in order. Every other reference becomes the direct link `display?mtime` with its own mtime, in order. |
| `AssetsHelper.GatherFirstMissing` | extensions/helper/Assets.php:142-155 | The exception names the first reference whose path is missing; every earlier one exists. |
| `AssetsHelper.GatherTotals` | extensions/helper/Assets.php:144-147 | `stats['modified']` and `stats['size']` are the sums of the mtimes and sizes of all resolved paths, direct links included. |
| `AssetsHelper.GatherTotalsGrow` | extensions/helper/Assets.php:144-147 | The running sums never decrease as the loop proceeds. |
| `PathInfo.Dirname` | extensions/helper/Assets.php:199 | PHP's `dirname`, which Assetic uses as a leaf's source root: trailing slashes, the last name and the slashes before it are dropped. |
| `PathInfo.Basename` | extensions/helper/Assets.php:199 | The source path Assetic reports for a leaf: the end of the path with no `/` in it, preceded by a `/` in the path, or the whole path when it has none. |
| `PathInfo.DirnameOfJoin` | extensions/helper/Assets.php:199 | A path `d/n` whose directory part does not end in `/` splits into `dirname` `d` and base name `n`. |
| `PathInfo.DirnameOfDoubled` | extensions/helper/Assets.php:199 | With two slashes before the name, `dirname` drops both. |
| `AssetsHelper.LeafPath` | extensions/helper/Assets.php:199 | `"{$leaf->getSourceRoot()}/{$leaf->getSourcePath()}"`: the `dirname` and `basename` of a collected path joined by `/`. `ResolvedLeafPath` and `LeadingSlashNotRebuilt` say when this gives the path back. |
| `AssetsHelper.ResolvedLeafPath` | extensions/helper/Assets.php:199-200 | A reference without a `/` of its own resolves to a path that the leaf's root and name join back into, so its stats are found. |
| `AssetsHelper.LeadingSlashNotRebuilt` | extensions/helper/Assets.php:199-200 | A reference written as `/name` resolves to a path with a doubled slash. The rebuilt leaf path is one character shorter, so the stats recorded under the original path are not found. |
| `AssetsHelper.Found` | extensions/helper/Assets.php:197-202 | The collected paths that pass the `isset($stats[$fullPath])` test, in order. All of them when every leaf path is found, none when none is. |
| `AssetsHelper.PerAsset` | extensions/helper/Assets.php:196-204 | Outside production there is one link per collected file that passes the `isset` test, and no direct link. When none passes, the cache is untouched and nothing is purged. |
| `AssetsHelper.PerAssetLinks` | extensions/helper/Assets.php:202 | The i-th link is `compiled/` plus the cache link named after the i-th passing file's base name (or the manifest) and the summed stats. |
| `AssetsHelper.RunAssets` | extensions/helper/Assets.php:109-208 | A request fails exactly when some resolved path is missing. Production gives exactly one bundle link and no direct links. Otherwise there is at most one link per file, and compress means no direct links. |
| `AssetsHelper.ProductionLink` | extensions/helper/Assets.php:180-192 | In production the one link names the bundle after every reference's raw name, concatenated in order (or after the manifest). It carries the sums of every referenced file's mtime and size. |
| `AssetsHelper.DevelopmentDirectLinks` | extensions/helper/Assets.php:160-176 | Outside production without compress, the page's direct links are exactly the `display?mtime` links of the non-`less`/`coffee` references, in order. |
| `AssetsHelper.LeadingSlashUnlinkedUnlessShared` | extensions/helper/Assets.php:197-202 | Outside production a reference written as `/name` gets no cached link unless some reference resolves to the collapsed path Assetic rebuilds from it. |
| `AssetsHelper.LeadingSlashAloneNotFound` | extensions/helper/Assets.php:199-200 | Gathering the single reference `/name` leaves no collected file whose rebuilt path is among the recorded stats. |
| `AssetsHelper.LeadingSlashAloneUnlinked` | extensions/helper/Assets.php:194-204 | A development request for the single file `/name` renders no cached link. |
| `AssetsHelper.DevelopmentBundles` | extensions/helper/Assets.php:194-204 | Outside production the cached links are, in order, one per collected file that passes the `isset` test, named by its base name and the summed stats of every reference. |
| `AssetsHelper.DevelopmentLinksEveryFile` | extensions/helper/Assets.php:127-204 | Outside production, when no reference contains `/`, every reference gets exactly one link, direct or cached. |
| `AssetsHelper.ProductionNeverPurges` | extensions/helper/Assets.php:286 | In production no helper call purges older cache files. |
| `AssetsHelper.Serve` | extensions/helper/Assets.php:64-100 | A named request fails with an unknown manifest exactly when the type has no manifest of that name. A known name runs the manifest's file list and passes the name on. A list of files runs that list with no manifest name. |
| `AssetsHelper.ProductionManifestLink` | extensions/helper/Assets.php:219-231 | In production with the query string on, a named request with a non-empty name of at most 250 characters links to `compiled/<name>.<type>?<sha1 of size then mtime>`. |
| `AssetsCache.BundleName` | extensions/helper/Assets.php:219-226 | The name is the manifest name in production when one is given and PHP-non-empty, and otherwise the passed filename. It is cut to its longest prefix of at most 250 characters. |
| `AssetsCache.LongNamesShareBundle` | extensions/helper/Assets.php:224-226 | Two names that agree on their first 250 characters get the same cache name. |
| `AssetsCache.Naming` | extensions/helper/Assets.php:229-236 | The file always ends in `.` plus the type. With the query string, the file is the name plus extension and the link is the file followed by `?`. Otherwise the link is the file, which starts with `sha1(name)_`; `HashedNameDecodes` reads the size, the mtime and the type back from the rest, in that order. |
| `AssetsCache.HashedNameDecodes` | extensions/helper/Assets.php:233-234 | When the hash has no `_`, the hashed file name reads back in order: the hash up to the first `_`, the summed size up to the next `_`, the summed mtime up to the `.`, and the type after it. |
| `AssetsCache.HashedNameRecordsStats` | extensions/helper/Assets.php:233-234 | When the hash contains no `_`, equal hashed file names mean equal size and mtime sums and equal hashes. So any change in the stats names a new cache file. |
| `AssetsCache.QueryStringFileIgnoresStats` | extensions/helper/Assets.php:229-231 | With the query string, the file name does not depend on the stats, and different query hashes give different links. |
| `AssetsCache.QueryStringLinkConflatesStats` | extensions/helper/Assets.php:231 | Size and mtime are hashed side by side without a separator, so size 1/mtime 23 and size 12/mtime 3 get the same link. |
| `AssetsCache.PurgePrefix` | extensions/helper/Assets.php:280-282 | The prefix is the part of the file name before its first `_`, or the whole name when it has none. |
| `AssetsCache.HashedPurgePrefix` | extensions/helper/Assets.php:280-282 | For a hashed name whose hash has no `_`, the purge prefix is exactly the hash of the bundle name. |
| `AssetsCache.CachedPath` | extensions/helper/Assets.php:244 | `buildHelper` probes for the cached file in the directory `setCache` creates and writes into. |
| `AssetsCache.NeedsRecache` | extensions/helper/Assets.php:245 | The cached file is rebuilt when it does not exist or its content is PHP-falsy (`""` or `"0"`). `BuildHelperSettles` shows that a PHP-truthy write turns the test off. |
| `AssetsCache.SetCache` | extensions/helper/Assets.php:265-303 | The content lands exactly at the path `buildHelper` probes. A purge happens exactly outside production, by the prefix of the file name before its first `_`. |
| `AssetsCache.BuildHelper` | extensions/helper/Assets.php:217-257 | The cached file always exists afterwards. It is rewritten with the new content exactly when it was missing or PHP-falsy. Outside production that rewrite purges by the new file's prefix; otherwise the cache is untouched and nothing is purged. The link target is `compiled/` plus the link. |
| `AssetsCache.BuildHelperSettles` | extensions/helper/Assets.php:244-247 | With PHP-truthy content (neither `""` nor `"0"`), repeating the same call rebuilds nothing and links to the same place. |
| `AssetsCache.QueryStringKeepsStaleBundle` | extensions/helper/Assets.php:239-247 | With the query string, a bundle built once is kept when a later call brings other stats and other content. Only its link changes. |

## Left out

- `Manifest::all()` and the command-line `Assets` command: a loop over the configuration with no logic of its own.
- The constructor's binary locations, `verbose` logging and `microtime` timing: they produce output and timings, nothing the naming depends on.
- `mkdir`, `file_put_contents` and the exec output. `compileFile` writes the compiler output only when it is non-empty; the model records the command and its exit status, not the files written.
- Assetic, its filters (Lessphp, CoffeeScript, YUI) and `dump()`: a foreign library. Rendering is a parameter. The source root and source path Assetic reports for a leaf are taken to be PHP's `dirname` and `basename` of the path it was given.
- The purge itself. `setCache` selects old files with the regular expression `^prefix` and unlinks them by a path relative to the working directory. The model reports only the prefix and whether a purge happens.
- `Libraries::get`, `Environment::get` and config/libraries.php: the configuration is a plain record.
- The test helper `load` in tests/cases/ManifestTest.php: it calls a four-argument constructor that `Manifest.php` does not have. Only its missing-manifest expectation is reflected, by `Manifests.NewManifest`.
- `AssetsHelper.Serve`: for an unknown manifest name PHP passes `null` to the array-typed `_runAssets` and fails with a type error; the model reports `UnknownManifest` instead.
- `AssetsHelper.Gather`: PHP's 64-bit integers could overflow the sums; stats are unbounded naturals here.
- `AssetsCache.BundleName`: PHP's `strlen`/`substr` count bytes, and the model counts characters.
- `PathInfo.Extension`: PHP's `pathinfo` also ignores trailing slashes and works on bytes. The model takes the text after the last `.` of the part after the last `/`, which agrees on the file paths used here. `PathInfo.Basename` likewise does not drop trailing slashes; no resolved reference ends in `/`.
- `AssetsHelper.PerAsset`: visits every collected path once per reference. Assetic's collection iterator, which is not part of this model, skips a leaf whose source it has already visited, so a file referenced twice can get one link there and two here.
- `AssetsHelper.DevelopmentLinksEveryFile`: its one link per reference assumes distinct leaves. With Assetic's skip, two references that resolve to the same path (with `compress` on, `a` and `a.css`, say) get one link between them.
- `AssetsHelper.RunAssets`: the echoed HTML tags are represented by the link target passed to the HTML helper.

## Findings

| source | as written | input that shows it | evidently intended | confidence | as-written member | corrected member |
|---|---|---|---|---|---|---|
| Manifest.php:157-159 | `needsCompileStep` matches the unanchored `/\.coffee\|\.less/` against the whole input path, directories included, and a match sends the file to `compileFile`, which exits with "unknown file type" for any extension other than `coffee`/`less` | manifest root `/w.coffee` with js asset `x.js`: input `/w.coffee/js/x.js` | compile exactly the files whose extension is `coffee` or `less` and copy the rest | medium, not executed | `ManifestBuild.CoffeeRootAbortsCompile` | `ManifestBuild.CopyOrCompileFixed` |

`ManifestBuild.CopyOrCompile` is the decision as written, and
`ManifestBuild.UnanchoredMatchAbortsPlainFiles` states the general case.
`ManifestBuild.Compile` with `AsWritten` is the source's `compile()`, which
`ManifestBuild.CoffeeRootAbortsCompile` runs on the input above.
`ManifestBuild.CopyOrCompileFixed` decides by extension; `Compile` uses it
with `ByExtension`, and `ManifestBuild.FixedCompileKnowsFileTypes` shows
that it never aborts with an unknown file type.
`ManifestBuild.NeedsCompileStep` and
`ManifestBuild.FixedAgreesWhereOriginalActs` show that the corrected
decision compiles only what the original would compile. They also show that
it differs from the original only where the original aborts or skips.

=== FILE: assets_cache.dfy ===
/** The cache side of the `Assets` template helper: how `buildHelper` names
    a cached bundle and the link to it, when it rebuilds the cached file,
    and how `setCache` stores the file and derives the prefix that older
    copies are purged by. File contents, `dump()` and sha1 are parameters. */
module AssetsCache {
  import opened Results
  import opened Strings

  /** The two asset types the helper serves (`$options['type']`). */
  datatype AssetType = Css | Js {
    function Ext(): (r: string)
      ensures r == "css" || r == "js"
    {
      match this
      case Css => "css"
      case Js => "js"
    }
  }

  /** Merged file stats of one helper call: summed mtimes and sizes. */
  datatype Totals = Totals(modified: nat, size: nat)

  /** The settings `buildHelper` and `setCache` read: the environment flag,
      the `queryString` option and `FRONTENDER_WEBROOT_DIR`. */
  datatype Settings = Settings(production: bool, queryString: bool, webroot: string)

  /** Longest bundle name kept before the cache name is built. */
  const MaxNameLength: nat := 250

  /** The name a bundle is cached under before hashing: the manifest's name
      in production when one is given and PHP-non-empty, otherwise the
      passed filename; either cut to its first 250 characters. */
  function BundleName(production: bool, filename: string, manifest: Option<string>): (r: string)
    ensures |r| <= MaxNameLength
    ensures var chosen := if production && manifest.Some? && !IsPhpFalsy(manifest.value)
                          then manifest.value else filename;
            IsPrefix(r, chosen) && (r == chosen || |r| == MaxNameLength)
  {
    var chosen := if production && manifest.Some? && !IsPhpFalsy(manifest.value)
                  then manifest.value else filename;
    if |chosen| > MaxNameLength then chosen[..MaxNameLength] else chosen
  }

  /** Because of the cut, two bundle names that agree on their first 250
      characters are cached as the same file. */
  lemma LongNamesShareBundle(a: string, b: string)
    requires |a| >= MaxNameLength && |b| >= MaxNameLength
    requires a[..MaxNameLength] == b[..MaxNameLength]
    ensures BundleName(false, a, None) == BundleName(false, b, None)
  {
    var ra, rb := BundleName(false, a, None), BundleName(false, b, None);
    assert ra == a[..MaxNameLength];
    assert rb == b[..MaxNameLength];
  }

  /** The cached file's name and the link the page gets. */
  datatype CacheName = CacheName(file: string, link: string)

  /** Cache naming in both modes. With `queryString` the file is the bundle
      name plus extension and the stats only reach the link's query string
      (as a sha1 of size followed by mtime); otherwise the file itself is
      `sha1(name)_size_mtime.ext` and the link is the file. */
  function Naming(t: AssetType, name: string, s: Totals, queryString: bool, sha1: string -> string): (r: CacheName)
    ensures IsSuffix("." + t.Ext(), r.file)
    ensures queryString ==> r.file == name + "." + t.Ext()
    ensures queryString ==> IsPrefix(r.file + "?", r.link)
    ensures !queryString ==> r.link == r.file && IsPrefix(sha1(name) + "_", r.file)
  {
    if queryString then
      var file := name + "." + t.Ext();
      CacheName(file, file + "?" + sha1(NatToString(s.size) + NatToString(s.modified)))
    else
      var file := sha1(name) + "_" + NatToString(s.size) + "_" + NatToString(s.modified) + "." + t.Ext();
      CacheName(file, file)
  }

  lemma NoUnderscoreInNumber(n: nat)
    ensures '_' !in NatToString(n) && '.' !in NatToString(n)
  {
  }

  /** Two strings cut at the first `c` with equal wholes have equal parts. */
  lemma SplitAtFirst(a: string, b: string, a2: string, b2: string, c: char)
    requires c !in a && c !in a2
    requires a + [c] + b == a2 + [c] + b2
    ensures a == a2 && b == b2
  {
    BeforeFirstOfJoin(a, c, b);
    BeforeFirstOfJoin(a2, c, b2);
    assert (a + [c] + b)[|a| + 1..] == b;
    assert (a2 + [c] + b2)[|a2| + 1..] == b2;
  }

  lemma HashedShape(h: string, s: Totals, e: string)
    ensures h + "_" + NatToString(s.size) + "_" + NatToString(s.modified) + "." + e
            == h + ['_'] + (NatToString(s.size) + ['_'] + (NatToString(s.modified) + ['.'] + e))
  {
  }

  /** A hashed cache name records the stats it was built from: when the
      hash has no `_` (sha1 is hex), equal names mean equal stats, so a
      change in any source file's size or mtime produces a new file. */
  lemma {:induction false} HashedNameRecordsStats(t: AssetType, a: string, b: string, s1: Totals, s2: Totals, sha1: string -> string)
    requires '_' !in sha1(a) && '_' !in sha1(b)
    requires Naming(t, a, s1, false, sha1).file == Naming(t, b, s2, false, sha1).file
    ensures s1 == s2 && sha1(a) == sha1(b)
  {
    var z1, z2 := NatToString(s1.size), NatToString(s2.size);
    var m1, m2 := NatToString(s1.modified), NatToString(s2.modified);
    NoUnderscoreInNumber(s1.size);
    NoUnderscoreInNumber(s2.size);
    NoUnderscoreInNumber(s1.modified);
    NoUnderscoreInNumber(s2.modified);
    HashedShape(sha1(a), s1, t.Ext());
    HashedShape(sha1(b), s2, t.Ext());
    SplitAtFirst(sha1(a), z1 + ['_'] + (m1 + ['.'] + t.Ext()), sha1(b), z2 + ['_'] + (m2 + ['.'] + t.Ext()), '_');
    SplitAtFirst(z1, m1 + ['.'] + t.Ext(), z2, m2 + ['.'] + t.Ext(), '_');
    SplitAtFirst(m1, t.Ext(), m2, t.Ext(), '.');
    NatToStringInjective(s1.size, s2.size);
    NatToStringInjective(s1.modified, s2.modified);
  }

  /** A hashed cache name reads back in the order Assets.php writes it: the
      hash up to the first `_`, the summed size up to the next `_`, the summed
      mtime up to the `.`, and the type after it. */
  lemma HashedNameDecodes(t: AssetType, name: string, s: Totals, sha1: string -> string)
    requires '_' !in sha1(name)
    ensures var f := Naming(t, name, s, false, sha1).file;
            var rest := AfterFirst(f, '_');
            var tail := AfterFirst(rest, '_');
            && BeforeFirst(f, '_') == sha1(name)
            && BeforeFirst(rest, '_') == NatToString(s.size)
            && BeforeFirst(tail, '.') == NatToString(s.modified)
            && AfterFirst(tail, '.') == t.Ext()
  {
    var z, m := NatToString(s.size), NatToString(s.modified);
    NoUnderscoreInNumber(s.size);
    NoUnderscoreInNumber(s.modified);
    HashedShape(sha1(name), s, t.Ext());
    BeforeFirstOfJoin(sha1(name), '_', z + ['_'] + (m + ['.'] + t.Ext()));
    AfterFirstOfJoin(sha1(name), '_', z + ['_'] + (m + ['.'] + t.Ext()));
    BeforeFirstOfJoin(z, '_', m + ['.'] + t.Ext());
    AfterFirstOfJoin(z, '_', m + ['.'] + t.Ext());
    BeforeFirstOfJoin(m, '.', t.Ext());
    AfterFirstOfJoin(m, '.', t.Ext());
  }

  /** With `queryString` the cached file's name does not depend on the
      stats at all: only the link changes when a source file changes. */
  lemma QueryStringFileIgnoresStats(t: AssetType, name: string, s1: Totals, s2: Totals, sha1: string -> string)
    ensures Naming(t, name, s1, true, sha1).file == Naming(t, name, s2, true, sha1).file
    ensures sha1(NatToString(s1.size) + NatToString(s1.modified)) != sha1(NatToString(s2.size) + NatToString(s2.modified))
            ==> Naming(t, name, s1, true, sha1).link != Naming(t, name, s2, true, sha1).link
  {
    var f := name + "." + t.Ext();
    var h1 := sha1(NatToString(s1.size) + NatToString(s1.modified));
    var h2 := sha1(NatToString(s2.size) + NatToString(s2.modified));
    if h1 != h2 {
      assert (f + "?" + h1)[|f| + 1..] == h1;
      assert (f + "?" + h2)[|f| + 1..] == h2;
    }
  }

  /** The query string hashes size and mtime written side by side with no
      separator, so different stats can share a link: size 1 with mtime 23
      and size 12 with mtime 3 both hash "123". */
  lemma QueryStringLinkConflatesStats(t: AssetType, name: string, sha1: string -> string)
    ensures Totals(23, 1) != Totals(3, 12)
    ensures Naming(t, name, Totals(23, 1), true, sha1).link == Naming(t, name, Totals(3, 12), true, sha1).link
  {
    SameDigits();
  }

  lemma SameDigits()
    ensures NatToString(1) + NatToString(23) == NatToString(12) + NatToString(3)
  {
    assert NatToString(23) == NatToString(2) + [DigitChar(3)];
    assert NatToString(12) == NatToString(1) + [DigitChar(2)];
  }

  /** The directory `setCache` writes into. */
  function CacheDir(s: Settings, t: AssetType): string {
    s.webroot + "/" + t.Ext() + "/compiled"
  }

  /** Where `buildHelper` looks for a cached file: in the directory
      `setCache` writes into. */
  function CachedPath(s: Settings, t: AssetType, file: string): (r: string)
    ensures r == CacheDir(s, t) + "/" + file
  {
    s.webroot + "/" + t.Ext() + "/compiled/" + file
  }

  /** Older copies of a cached file are those starting with the part of its
      name before the first `_`, or with the whole name if it has none. */
  function PurgePrefix(file: string): (r: string)
    ensures IsPrefix(r, file) && '_' !in r
    ensures |r| < |file| ==> file[|r|] == '_'
  {
    BeforeFirst(file, '_')
  }

  /** In hashed mode the purge prefix is exactly the hash of the bundle name,
      so a rebuild purges every stats variant of the same bundle. */
  lemma HashedPurgePrefix(t: AssetType, name: string, s: Totals, sha1: string -> string)
    requires '_' !in sha1(name)
    ensures PurgePrefix(Naming(t, name, s, false, sha1).file) == sha1(name)
  {
    HashedShape(sha1(name), s, t.Ext());
    BeforeFirstOfJoin(sha1(name), '_', NatToString(s.size) + ['_'] + (NatToString(s.modified) + ['.'] + t.Ext()));
  }

  /** What `setCache` does to the cache: the file written, and the prefix
      it purges by, if it purges. */
  datatype CacheWrite = CacheWrite(cache: map<string, string>, purge: Option<string>)

  /** Stores `content` as `file` in the cache directory; outside production
      it first purges older copies, which are named here by their prefix.
      The file lands exactly where `buildHelper` probes for it. */
  function SetCache(s: Settings, t: AssetType, file: string, content: string, cache: map<string, string>): (r: CacheWrite)
    ensures r.cache == cache[CachedPath(s, t, file) := content]
    ensures r.purge.Some? <==> !s.production
    ensures !s.production ==> r.purge == Some(PurgePrefix(file))
  {
    var dir := CacheDir(s, t);
    CacheWrite(cache[dir + "/" + file := content], if s.production then None else Some(PurgePrefix(file)))
  }

  /** A cached file is rebuilt when it is missing or its content is
      PHP-falsy ("" or "0"). */
  predicate NeedsRecache(cache: map<string, string>, path: string) {
    path !in cache || IsPhpFalsy(cache[path])
  }

  /** What one `buildHelper` call produces: the link target handed to the
      html helper, the cached file's name, the cache afterwards and the
      purge prefix, if `setCache` ran outside production. */
  datatype Built = Built(href: string, file: string, cache: map<string, string>, purge: Option<string>)

  /** `buildHelper`: names the cached file, rebuilds it from `content`
      when needed and links to it under `compiled/`. */
  function BuildHelper(s: Settings, t: AssetType, filename: string, manifest: Option<string>,
                       totals: Totals, content: string, cache: map<string, string>,
                       sha1: string -> string): (r: Built)
    ensures var n := Naming(t, BundleName(s.production, filename, manifest), totals, s.queryString, sha1);
            r.file == n.file && r.href == "compiled/" + n.link
    ensures IsPrefix("compiled/" + r.file, r.href)
    ensures var p := CachedPath(s, t, r.file);
            p in r.cache
            && (NeedsRecache(cache, p) ==> r.cache == cache[p := content])
            && (!NeedsRecache(cache, p) ==> r.cache == cache && r.purge == None)
    ensures r.purge.Some? ==> !s.production && NeedsRecache(cache, CachedPath(s, t, r.file))
    ensures NeedsRecache(cache, CachedPath(s, t, r.file)) && !s.production ==> r.purge == Some(PurgePrefix(r.file))
  {
    var name := BundleName(s.production, filename, manifest);
    var n := Naming(t, name, totals, s.queryString, sha1);
    var p := CachedPath(s, t, n.file);
    var w := if NeedsRecache(cache, p) then SetCache(s, t, n.file, content, cache) else CacheWrite(cache, None);
    Built("compiled/" + n.link, n.file, w.cache, w.purge)
  }

  /** Once built with PHP-truthy content, the same call again rebuilds
      nothing and links to the same place. */
  lemma BuildHelperSettles(s: Settings, t: AssetType, filename: string, manifest: Option<string>,
                           totals: Totals, content: string, cache: map<string, string>,
                           sha1: string -> string)
    requires !IsPhpFalsy(content)
    ensures var b := BuildHelper(s, t, filename, manifest, totals, content, cache, sha1);
            var b2 := BuildHelper(s, t, filename, manifest, totals, content, b.cache, sha1);
            b2.cache == b.cache && b2.href == b.href && b2.purge == None
  {
    var b := BuildHelper(s, t, filename, manifest, totals, content, cache, sha1);
    var p := CachedPath(s, t, b.file);
    assert !NeedsRecache(b.cache, p);
  }

  /** With `queryString`, a bundle built once is never rebuilt when its
      sources change: a later call with other stats and other content
      finds the same cached file and keeps it. */
  lemma QueryStringKeepsStaleBundle(s: Settings, t: AssetType, filename: string, manifest: Option<string>,
                                    s1: Totals, s2: Totals, c1: string, c2: string,
                                    cache: map<string, string>, sha1: string -> string)
    requires s.queryString && !IsPhpFalsy(c1)
    ensures var b1 := BuildHelper(s, t, filename, manifest, s1, c1, cache, sha1);
            var b2 := BuildHelper(s, t, filename, manifest, s2, c2, b1.cache, sha1);
            b2.file == b1.file && b2.cache == b1.cache
  {
    var b1 := BuildHelper(s, t, filename, manifest, s1, c1, cache, sha1);
    var name := BundleName(s.production, filename, manifest);
    QueryStringFileIgnoresStats(t, name, s1, s2, sha1);
    assert !NeedsRecache(b1.cache, CachedPath(s, t, b1.file));
  }
}

=== FILE: assets_helper.dfy ===
/** The `Assets` template helper's request handling: the normalised assets
    root, how each referenced file becomes a source path and a display name,
    how file stats are gathered and summed, and how `_runAssets` hands the
    collected files to `buildHelper`. The filesystem is a map from path to
    stat; rendering (`dump()`), sha1 and the cache are parameters. */
module AssetsHelper {
  import opened Results
  import opened Strings
  import opened Pcre
  import opened PathInfo
  import opened AssetsCache
  import opened Library

  /** What a missing source file or an unknown manifest name leads to. */
  datatype AssetError =
    | MissingFile(kind: AssetType, path: string)
    | UnknownManifest(kind: AssetType, name: string)

  /** `_init` drops one trailing `/` from the assets root, if there is one. */
  function NormalizeRoot(root: string): (r: string)
    ensures IsSuffix("/", root) ==> r + "/" == root
    ensures !IsSuffix("/", root) ==> r == root
  {
    if IsSuffix("/", root) then root[..|root| - 1] else root
  }

  /** The directory a type's files are read from: the normalised root,
      then `/css/` or `/js/`. It joins the root with one `/`: a root already
      ending in `/` is used as it is. */
  function AssetBase(root: string, t: AssetType): (r: string)
    ensures r == (if IsSuffix("/", root) then root else root + "/") + t.Ext() + "/"
  {
    NormalizeRoot(root) + "/" + t.Ext() + "/"
  }

  /** Only exactly one slash is dropped: a root ending in a single `/` gives
      no doubled slash, while a root ending in `//` keeps one. */
  lemma NormalizeRootOnce(root: string)
    ensures !IsSuffix("//", root) ==> !IsSuffix("/", NormalizeRoot(root))
    ensures IsSuffix("//", root) ==> IsSuffix("/", NormalizeRoot(root))
  {
    var r := NormalizeRoot(root);
    if IsSuffix("/", root) && |root| >= 2 {
      assert r[|r| - 1] == root[|root| - 2];
      if !IsSuffix("//", root) {
        assert root[|root| - 2..] != "//";
        assert root[|root| - 2..] == [root[|root| - 2], root[|root| - 1]];
      }
    }
  }

  /** `specialExt`: the text matched by `/(.less|.coffee)$/is`, if any. */
  function SpecialExt(name: string): (r: Option<string>)
    ensures r.Some? ==> |r.value| >= 5 && IsSuffix(r.value, name[..LetterEnd(name)])
  {
    MatchAltAtEnd(name, "less", "coffee")
  }

  /** `preg_match("/(.css|.js)$/is", name)`. */
  predicate StyleOrScript(name: string) {
    MatchAltAtEnd(name, "css", "js").Some?
  }

  /** A name counts as a stylesheet or script exactly when some position
      where `$` holds follows any one character and then `css` or `js`,
      ignoring case. */
  lemma StyleOrScriptMeaning(name: string)
    ensures StyleOrScript(name)
            <==> exists e: nat :: DollarAt(name, e) && (AnyThenAt(name, e, "css") || AnyThenAt(name, e, "js"))
  {
    MatchAltAtEndMeaning(name, "css", "js");
  }

  /** A referenced file resolved against its base directory: the path stat'ed
      and read, the name shown in direct links, and whether it needs a
      compiling filter (`less`/`coffee`). */
  datatype Reference = Reference(path: string, display: string, special: bool)

  /** Special or already-suffixed names are used as given; any other name
      gets `.css`/`.js` appended, both in its path and in its display name. */
  function Resolve(base: string, file: string, t: AssetType): (r: Reference)
    ensures r.special <==> SpecialExt(file).Some?
    ensures r.path == base + r.display
    ensures r.special || StyleOrScript(file) ==> r.display == file
    ensures !r.special && !StyleOrScript(file) ==> r.display == file + "." + t.Ext()
  {
    var special := SpecialExt(file).Some?;
    if special || StyleOrScript(file) then Reference(base + file, file, special)
    else Reference(base + file + "." + t.Ext(), file + "." + t.Ext(), special)
  }

  lemma ExtensionMatches(file: string, t: AssetType)
    ensures StyleOrScript(file + "." + t.Ext())
  {
    var d := file + "." + t.Ext();
    var w := t.Ext();
    assert d[|d| - |w|..] == w;
    assert Lower(w) == w;
    assert LetterEnd(d) == |d|;
    assert AnyThenAt(d, |d|, w);
    MatchAltAtEndMeaning(d, "css", "js");
    assert DollarAt(d, |d|);
  }

  /** Every display name ends the way the two patterns look for: resolving
      a reference never leaves a bare name. */
  lemma ResolvedIsRecognised(base: string, file: string, t: AssetType)
    ensures var r := Resolve(base, file, t);
            SpecialExt(r.display).Some? || StyleOrScript(r.display)
  {
    var r := Resolve(base, file, t);
    if !r.special && !StyleOrScript(file) {
      ExtensionMatches(file, t);
    }
  }

  /** Resolving a display name again changes nothing. */
  lemma ResolveIdempotent(base: string, file: string, t: AssetType)
    ensures var r := Resolve(base, file, t);
            Resolve(base, r.display, t).display == r.display
  {
    ResolvedIsRecognised(base, file, t);
  }

  /** `stat()`'s two fields the helper reads. */
  datatype Stat = Stat(mtime: nat, size: nat)

  /** What the loop over the references leaves behind: the summed stats,
      the per-path stats, the direct (uncached) links, the asset paths
      handed to the collection and the concatenated raw names. */
  datatype Gathered = Gathered(
    totals: Totals,
    perFile: map<string, Stat>,
    direct: seq<string>,
    assets: seq<string>,
    concat: string)

  /** The paths the references resolve to, in order. */
  function PathsOf(base: string, files: seq<string>, t: AssetType): (r: seq<string>)
    ensures |r| == |files|
    ensures forall i :: 0 <= i < |files| ==> r[i] == Resolve(base, files[i], t).path
  {
    seq(|files|, i requires 0 <= i < |files| => Resolve(base, files[i], t).path)
  }

  predicate AllPresent(paths: seq<string>, fs: map<string, Stat>) {
    forall i :: 0 <= i < |paths| ==> paths[i] in fs
  }

  /** Reference sums of mtimes and sizes, taken from the front. */
  function SumMtime(paths: seq<string>, fs: map<string, Stat>): nat
    requires AllPresent(paths, fs)
  {
    if paths == [] then 0 else fs[paths[0]].mtime + SumMtime(paths[1..], fs)
  }

  function SumSize(paths: seq<string>, fs: map<string, Stat>): nat
    requires AllPresent(paths, fs)
  {
    if paths == [] then 0 else fs[paths[0]].size + SumSize(paths[1..], fs)
  }

  /** The loop of `_runAssets` over `files`, in order: each reference is
      resolved and stat'ed, a missing file stops everything with an error;
      with `directLinks` (neither production nor compress) a plain file
      becomes a direct link stamped with its mtime, every other file joins
      the collection. */
  function Gather(t: AssetType, base: string, files: seq<string>, fs: map<string, Stat>, directLinks: bool)
    : (r: Result<Gathered, AssetError>)
    ensures r.Success? <==> AllPresent(PathsOf(base, files, t), fs)
    ensures r.Failure? ==> r.error.MissingFile? && r.error.kind == t && r.error.path !in fs
    ensures r.Success? ==> |r.value.direct| + |r.value.assets| == |files|
    ensures r.Success? && !directLinks ==> r.value.direct == []
    decreases |files|
  {
    if files == [] then Success(Gathered(Totals(0, 0), map[], [], [], ""))
    else
      var front := files[..|files| - 1];
      var file := files[|files| - 1];
      PathsOfSnoc(base, files, t);
      var g :- Gather(t, base, front, fs, directLinks);
      var ref := Resolve(base, file, t);
      if ref.path !in fs then Failure(MissingFile(t, ref.path))
      else
        var st := fs[ref.path];
        var totals := Totals(g.totals.modified + st.mtime, g.totals.size + st.size);
        var perFile := g.perFile[ref.path := st];
        if !ref.special && directLinks then
          Success(g.(totals := totals, perFile := perFile,
                     direct := g.direct + [ref.display + "?" + NatToString(st.mtime)]))
        else
          Success(g.(totals := totals, perFile := perFile,
                     assets := g.assets + [ref.path], concat := g.concat + file))
  }

  lemma GatherFailStep(t: AssetType, base: string, files: seq<string>, fs: map<string, Stat>, directLinks: bool)
    requires files != []
    requires Gather(t, base, files, fs, directLinks).Failure?
    ensures var front := Gather(t, base, files[..|files| - 1], fs, directLinks);
            var e := Gather(t, base, files, fs, directLinks).error;
            (front.Failure? ==> e == front.error)
            && (front.Success? ==> e.path == Resolve(base, files[|files| - 1], t).path)
  {
  }

  /** Every collected asset has its stats recorded under its path, so the
      per-file lookup before each `buildHelper` call always succeeds. */
  lemma {:induction false} GatherAssetsHaveStats(t: AssetType, base: string, files: seq<string>, fs: map<string, Stat>, directLinks: bool)
    requires Gather(t, base, files, fs, directLinks).Success?
    ensures var g := Gather(t, base, files, fs, directLinks).value;
            forall i :: 0 <= i < |g.assets| ==> g.assets[i] in g.perFile && g.assets[i] in fs && g.perFile[g.assets[i]] == fs[g.assets[i]]
    decreases |files|
  {
    if files != [] {
      GatherAssetsHaveStats(t, base, files[..|files| - 1], fs, directLinks);
    }
  }

  /** The per-file stats hold exactly the resolved paths of the
      references, each with its own stat. */
  lemma {:induction false} GatherPerFile(t: AssetType, base: string, files: seq<string>, fs: map<string, Stat>, directLinks: bool)
    requires Gather(t, base, files, fs, directLinks).Success?
    ensures var g := Gather(t, base, files, fs, directLinks).value;
            (forall p :: p in g.perFile <==> p in PathsOf(base, files, t))
            && forall p :: p in g.perFile ==> p in fs && g.perFile[p] == fs[p]
    decreases |files|
  {
    if files != [] {
      var front := files[..|files| - 1];
      var p := Resolve(base, files[|files| - 1], t).path;
      GatherPerFile(t, base, front, fs, directLinks);
      GatherPerFileStep(t, base, files, fs, directLinks);
      PathsOfSnoc(base, files, t);
      PerFileSnoc(Gather(t, base, front, fs, directLinks).value.perFile,
                  Gather(t, base, files, fs, directLinks).value.perFile, PathsOf(base, front, t), p, fs);
    }
  }

  /** One step of the loop records the last reference's stat under its path. */
  lemma GatherPerFileStep(t: AssetType, base: string, files: seq<string>, fs: map<string, Stat>, directLinks: bool)
    requires files != []
    requires Gather(t, base, files, fs, directLinks).Success?
    ensures var front := Gather(t, base, files[..|files| - 1], fs, directLinks);
            var p := Resolve(base, files[|files| - 1], t).path;
            front.Success? && p in fs
            && Gather(t, base, files, fs, directLinks).value.perFile == front.value.perFile[p := fs[p]]
  {
  }

  lemma PerFileSnoc(before: map<string, Stat>, after: map<string, Stat>, paths: seq<string>, p: string, fs: map<string, Stat>)
    requires forall q :: q in before <==> q in paths
    requires forall q :: q in before ==> q in fs && before[q] == fs[q]
    requires p in fs && after == before[p := fs[p]]
    ensures forall q :: q in after <==> q in paths + [p]
    ensures forall q :: q in after ==> q in fs && after[q] == fs[q]
  {
  }

  /** Without direct links every reference is collected, in order. */
  lemma {:induction false} GatherCollectsAll(t: AssetType, base: string, files: seq<string>, fs: map<string, Stat>)
    requires Gather(t, base, files, fs, false).Success?
    ensures Gather(t, base, files, fs, false).value.assets == PathsOf(base, files, t)
    decreases |files|
  {
    if files != [] {
      GatherCollectsAll(t, base, files[..|files| - 1], fs);
      PathsOfSnoc(base, files, t);
    }
  }

  /** `files[i]` resolves to `path` and every earlier reference exists. */
  predicate FirstMissingAt(base: string, files: seq<string>, t: AssetType, fs: map<string, Stat>, i: nat, path: string) {
    i < |files| && Resolve(base, files[i], t).path == path
    && forall j :: 0 <= j < i ==> Resolve(base, files[j], t).path in fs
  }

  lemma FirstMissingInFront(base: string, files: seq<string>, t: AssetType, fs: map<string, Stat>, i: nat, path: string)
    requires files != []
    requires FirstMissingAt(base, files[..|files| - 1], t, fs, i, path)
    ensures FirstMissingAt(base, files, t, fs, i, path)
  {
    var front := files[..|files| - 1];
    assert files[i] == front[i];
    assert forall j :: 0 <= j < i ==> files[j] == front[j];
  }

  lemma MissingAtEnd(base: string, files: seq<string>, t: AssetType, fs: map<string, Stat>)
    requires files != []
    requires AllPresent(PathsOf(base, files[..|files| - 1], t), fs)
    ensures FirstMissingAt(base, files, t, fs, |files| - 1, Resolve(base, files[|files| - 1], t).path)
  {
    var front := files[..|files| - 1];
    assert forall j :: 0 <= j < |front| ==> files[j] == front[j] && PathsOf(base, front, t)[j] in fs;
  }

  /** The error names the first missing file: every earlier one exists. */
  lemma {:induction false} GatherFirstMissing(t: AssetType, base: string, files: seq<string>, fs: map<string, Stat>, directLinks: bool)
    requires Gather(t, base, files, fs, directLinks).Failure?
    ensures exists i: nat :: FirstMissingAt(base, files, t, fs, i, Gather(t, base, files, fs, directLinks).error.path)
    decreases |files|
  {
    var front := files[..|files| - 1];
    var e := Gather(t, base, files, fs, directLinks).error;
    GatherFailStep(t, base, files, fs, directLinks);
    if Gather(t, base, front, fs, directLinks).Failure? {
      GatherFirstMissing(t, base, front, fs, directLinks);
      var i: nat :| FirstMissingAt(base, front, t, fs, i, e.path);
      FirstMissingInFront(base, files, t, fs, i, e.path);
    } else {
      MissingAtEnd(base, files, t, fs);
    }
  }

  lemma SumSnoc(paths: seq<string>, p: string, fs: map<string, Stat>)
    requires AllPresent(paths, fs) && p in fs
    ensures AllPresent(paths + [p], fs)
    ensures SumMtime(paths + [p], fs) == SumMtime(paths, fs) + fs[p].mtime
    ensures SumSize(paths + [p], fs) == SumSize(paths, fs) + fs[p].size
  {
    assert forall i :: 0 <= i < |paths| ==> (paths + [p])[i] == paths[i];
    if paths != [] {
      assert (paths + [p])[1..] == paths[1..] + [p];
      SumSnoc(paths[1..], p, fs);
    }
  }

  /** One step of the loop adds the file's stats to the running sums. */
  lemma GatherStep(t: AssetType, base: string, files: seq<string>, fs: map<string, Stat>, directLinks: bool)
    requires files != []
    requires Gather(t, base, files, fs, directLinks).Success?
    ensures var front := files[..|files| - 1];
            var p := Resolve(base, files[|files| - 1], t).path;
            Gather(t, base, front, fs, directLinks).Success? && p in fs
            && Gather(t, base, files, fs, directLinks).value.totals
               == Totals(Gather(t, base, front, fs, directLinks).value.totals.modified + fs[p].mtime,
                         Gather(t, base, front, fs, directLinks).value.totals.size + fs[p].size)
  {
  }

  lemma PathsOfSnoc(base: string, files: seq<string>, t: AssetType)
    requires files != []
    ensures PathsOf(base, files, t)
            == PathsOf(base, files[..|files| - 1], t) + [Resolve(base, files[|files| - 1], t).path]
  {
  }

  /** The merged stats are the sums of the stats of every referenced file,
      direct links included. */
  lemma {:induction false} GatherTotals(t: AssetType, base: string, files: seq<string>, fs: map<string, Stat>, directLinks: bool)
    requires Gather(t, base, files, fs, directLinks).Success?
    ensures AllPresent(PathsOf(base, files, t), fs)
    ensures Gather(t, base, files, fs, directLinks).value.totals
            == Totals(SumMtime(PathsOf(base, files, t), fs), SumSize(PathsOf(base, files, t), fs))
    decreases |files|
  {
    if files == [] {
      assert PathsOf(base, files, t) == [];
    } else {
      var front := files[..|files| - 1];
      var p := Resolve(base, files[|files| - 1], t).path;
      GatherStep(t, base, files, fs, directLinks);
      PathsOfSnoc(base, files, t);
      GatherTotals(t, base, front, fs, directLinks);
      SumSnoc(PathsOf(base, front, t), p, fs);
    }
  }

  /** The merged stats never decrease as the loop goes on. */
  lemma {:induction false} GatherTotalsGrow(t: AssetType, base: string, files: seq<string>, k: nat, fs: map<string, Stat>, directLinks: bool)
    requires k <= |files|
    requires Gather(t, base, files, fs, directLinks).Success?
    ensures Gather(t, base, files[..k], fs, directLinks).Success?
    ensures var small := Gather(t, base, files[..k], fs, directLinks).value.totals;
            var all := Gather(t, base, files, fs, directLinks).value.totals;
            small.modified <= all.modified && small.size <= all.size
    decreases |files|
  {
    if k < |files| {
      var front := files[..|files| - 1];
      assert front[..k] == files[..k];
      GatherTotalsGrow(t, base, front, k, fs, directLinks);
    } else {
      assert files[..k] == files;
    }
  }

  /** Every reference's raw name, concatenated in order. */
  function Joined(files: seq<string>): string {
    if files == [] then "" else files[0] + Joined(files[1..])
  }

  lemma {:induction false} JoinedSnoc(files: seq<string>, f: string)
    ensures Joined(files + [f]) == Joined(files) + f
  {
    if files != [] {
      assert (files + [f])[1..] == files[1..] + [f];
      JoinedSnoc(files[1..], f);
    } else {
      assert [f][1..] == [];
    }
  }

  lemma JoinedStep(files: seq<string>, before: string, after: string)
    requires files != []
    requires before == Joined(files[..|files| - 1]) && after == before + files[|files| - 1]
    ensures after == Joined(files)
  {
    JoinedSnoc(files[..|files| - 1], files[|files| - 1]);
    assert files[..|files| - 1] + [files[|files| - 1]] == files;
  }

  /** The references, resolved in order. */
  function Refs(base: string, files: seq<string>, t: AssetType): (r: seq<Reference>)
    ensures |r| == |files|
    ensures forall i :: 0 <= i < |files| ==> r[i] == Resolve(base, files[i], t)
  {
    seq(|files|, i requires 0 <= i < |files| => Resolve(base, files[i], t))
  }

  lemma RefsSnoc(base: string, files: seq<string>, t: AssetType)
    requires files != []
    ensures Refs(base, files, t) == Refs(base, files[..|files| - 1], t) + [Resolve(base, files[|files| - 1], t)]
  {
    var init := files[..|files| - 1];
    var a, b := Refs(base, files, t), Refs(base, init, t);
    forall i | 0 <= i < |b|
      ensures a[i] == b[i]
    {
      assert files[i] == init[i];
    }
    SnocPointwise(a, b, Resolve(base, files[|files| - 1], t));
  }

  lemma SnocPointwise(a: seq<Reference>, b: seq<Reference>, x: Reference)
    requires |a| == |b| + 1 && a[|b|] == x
    requires forall i :: 0 <= i < |b| ==> a[i] == b[i]
    ensures a == b + [x]
  {
  }

  /** The paths of the `less`/`coffee` references, in order. */
  function SpecialPaths(refs: seq<Reference>): seq<string> {
    if refs == [] then []
    else (if refs[0].special then [refs[0].path] else []) + SpecialPaths(refs[1..])
  }

  lemma {:induction false} SpecialPathsSnoc(refs: seq<Reference>, ref: Reference)
    ensures SpecialPaths(refs + [ref]) == SpecialPaths(refs) + (if ref.special then [ref.path] else [])
  {
    if refs != [] {
      assert (refs + [ref])[1..] == refs[1..] + [ref];
      SpecialPathsSnoc(refs[1..], ref);
    } else {
      assert [ref][1..] == [];
    }
  }

  /** A direct link: the display name stamped with the file's mtime. */
  function DirectLink(ref: Reference, st: Stat): string {
    ref.display + "?" + NatToString(st.mtime)
  }

  /** Every reference names a file that exists. */
  predicate AllExist(refs: seq<Reference>, fs: map<string, Stat>) {
    forall i :: 0 <= i < |refs| ==> refs[i].path in fs
  }

  /** A reference's direct link, if it gets one: every reference but the
      `less`/`coffee` ones. */
  function LinkOf(ref: Reference, fs: map<string, Stat>): seq<string>
    requires ref.path in fs
  {
    if ref.special then [] else [DirectLink(ref, fs[ref.path])]
  }

  /** The direct links of the references, in order. */
  function DirectLinks(refs: seq<Reference>, fs: map<string, Stat>): seq<string>
    requires AllExist(refs, fs)
  {
    if refs == [] then []
    else
      assert forall i :: 0 <= i < |refs| - 1 ==> refs[1..][i] == refs[i + 1];
      LinkOf(refs[0], fs) + DirectLinks(refs[1..], fs)
  }

  lemma {:induction false} DirectLinksSnoc(refs: seq<Reference>, ref: Reference, fs: map<string, Stat>)
    requires AllExist(refs, fs) && ref.path in fs
    ensures AllExist(refs + [ref], fs)
    ensures DirectLinks(refs + [ref], fs) == DirectLinks(refs, fs) + LinkOf(ref, fs)
  {
    var all := refs + [ref];
    assert forall i :: 0 <= i < |refs| ==> all[i] == refs[i];
    if refs != [] {
      assert all[1..] == refs[1..] + [ref];
      assert forall i :: 0 <= i < |refs| - 1 ==> refs[1..][i] == refs[i + 1];
      DirectLinksSnoc(refs[1..], ref, fs);
    } else {
      assert all[1..] == [];
    }
  }

  /** One step of the loop with direct links: a `less`/`coffee` reference
      is collected, any other one linked directly. */
  lemma GatherLinkStep(t: AssetType, base: string, files: seq<string>, fs: map<string, Stat>)
    requires files != []
    requires Gather(t, base, files, fs, true).Success?
    ensures var front := Gather(t, base, files[..|files| - 1], fs, true);
            var g := Gather(t, base, files, fs, true).value;
            var ref := Resolve(base, files[|files| - 1], t);
            front.Success? && ref.path in fs
            && g.assets == front.value.assets + (if ref.special then [ref.path] else [])
            && g.direct == front.value.direct + LinkOf(ref, fs)
  {
  }

  lemma GatherNameStep(t: AssetType, base: string, files: seq<string>, fs: map<string, Stat>)
    requires files != []
    requires Gather(t, base, files, fs, false).Success?
    ensures var front := Gather(t, base, files[..|files| - 1], fs, false);
            front.Success?
            && Gather(t, base, files, fs, false).value.concat == front.value.concat + files[|files| - 1]
  {
  }

  /** Without direct links the names of all references, concatenated in
      order, are what a production bundle is named after. */
  lemma {:induction false} GatherJoinsNames(t: AssetType, base: string, files: seq<string>, fs: map<string, Stat>)
    requires Gather(t, base, files, fs, false).Success?
    ensures Gather(t, base, files, fs, false).value.concat == Joined(files)
    decreases |files|
  {
    if files != [] {
      var front := files[..|files| - 1];
      GatherNameStep(t, base, files, fs);
      GatherJoinsNames(t, base, front, fs);
      JoinedStep(files, Gather(t, base, front, fs, false).value.concat, Gather(t, base, files, fs, false).value.concat);
    }
  }

  /** With direct links exactly the `less`/`coffee` references are
      collected, and every other one becomes a direct link stamped with its
      own mtime, both in order. */
  lemma {:induction false} GatherSplitsDirect(t: AssetType, base: string, files: seq<string>, fs: map<string, Stat>)
    requires Gather(t, base, files, fs, true).Success?
    ensures AllExist(Refs(base, files, t), fs)
    ensures var g := Gather(t, base, files, fs, true).value;
            g.assets == SpecialPaths(Refs(base, files, t)) && g.direct == DirectLinks(Refs(base, files, t), fs)
    decreases |files|
  {
    if files != [] {
      var front := files[..|files| - 1];
      var ref := Resolve(base, files[|files| - 1], t);
      GatherLinkStep(t, base, files, fs);
      GatherSplitsDirect(t, base, front, fs);
      RefsSnoc(base, files, t);
      SpecialPathsSnoc(Refs(base, front, t), ref);
      DirectLinksSnoc(Refs(base, front, t), ref, fs);
    }
  }

  /** The settings `buildHelper` reads, taken from the configuration. */
  function SettingsOf(c: Config): Settings {
    Settings(c.production, c.queryString, c.webroot)
  }

  /** What a helper call leaves behind: the direct links, the links to
      cached bundles, the cache afterwards and the purge prefixes used. */
  datatype Page = Page(direct: seq<string>, bundled: seq<string>, cache: map<string, string>, purges: seq<string>)

  function PurgesOf(b: Built): seq<string> {
    if b.purge.Some? then [b.purge.value] else []
  }

  /** Assetic's `FileAsset` keeps the `dirname` of its source as the source
      root and the `basename` as the source path; the loop joins the two
      with `/` to look the file's stats up again. */
  function LeafPath(p: string): string {
    Dirname(p) + "/" + Basename(p)
  }

  /** A resolved path is the type's directory, `/`, then the display name. */
  lemma ResolvedParts(root: string, file: string, t: AssetType)
    ensures var r := Resolve(AssetBase(root, t), file, t);
            var d := NormalizeRoot(root) + "/" + t.Ext();
            r.path == d + "/" + r.display && d != "" && d[|d| - 1] != '/' && '/' !in t.Ext()
            && (r.display == file || r.display == file + "." + t.Ext())
  {
    var e := t.Ext();
    var d := NormalizeRoot(root) + "/" + e;
    assert d[|d| - 1] == e[|e| - 1];
  }

  lemma NameWithoutSlash(file: string, e: string, display: string)
    requires file != "" && '/' !in file && '/' !in e
    requires display == file || display == file + "." + e
    ensures display != "" && '/' !in display
  {
  }

  lemma LeadingSlashName(name: string, e: string, display: string)
    requires name != "" && '/' !in name && '/' !in e
    requires display == "/" + name || display == "/" + name + "." + e
    ensures display == "/" + display[1..] && display[1..] != "" && '/' !in display[1..]
  {
    if display == "/" + name {
      assert display[1..] == name;
    } else {
      assert display[1..] == name + "." + e;
    }
  }

  lemma DoubledJoin(d: string, n: string, display: string, p: string)
    requires display == "/" + n && p == d + "/" + display
    ensures p == d + "//" + n
  {
  }

  /** A resolved reference without `/` of its own comes back unchanged. */
  lemma ResolvedLeafPath(root: string, file: string, t: AssetType)
    requires file != "" && '/' !in file
    ensures var p := Resolve(AssetBase(root, t), file, t).path;
            LeafPath(p) == p
  {
    var r := Resolve(AssetBase(root, t), file, t);
    ResolvedParts(root, file, t);
    NameWithoutSlash(file, t.Ext(), r.display);
    DirnameOfJoin(NormalizeRoot(root) + "/" + t.Ext(), r.display);
  }

  /** A reference written with a leading `/` resolves to a path with a
      doubled slash, which `dirname` collapses: the rebuilt path is not the
      one its stats were recorded under. */
  lemma LeadingSlashNotRebuilt(root: string, name: string, t: AssetType)
    requires name != "" && '/' !in name
    ensures var p := Resolve(AssetBase(root, t), "/" + name, t).path;
            LeafPath(p) != p && |LeafPath(p)| + 1 == |p|
  {
    var r := Resolve(AssetBase(root, t), "/" + name, t);
    var d := NormalizeRoot(root) + "/" + t.Ext();
    ResolvedParts(root, "/" + name, t);
    assert ("/" + name) + "." + t.Ext() == "/" + name + "." + t.Ext();
    LeadingSlashName(name, t.Ext(), r.display);
    var n := r.display[1..];
    DoubledJoin(d, n, r.display, r.path);
    DirnameOfDoubled(d, n);
  }

  /** The collected paths whose stats the loop finds again, in order. */
  function Found(assets: seq<string>, perFile: map<string, Stat>): (r: seq<string>)
    ensures |r| <= |assets|
  {
    if assets == [] then []
    else if LeafPath(assets[0]) in perFile then [assets[0]] + Found(assets[1..], perFile)
    else Found(assets[1..], perFile)
  }

  /** Only paths that pass the `isset` test are kept, and only collected ones. */
  lemma {:induction false} FoundPasses(assets: seq<string>, perFile: map<string, Stat>)
    ensures forall x :: x in Found(assets, perFile) ==> x in assets && LeafPath(x) in perFile
  {
    if assets != [] {
      FoundPasses(assets[1..], perFile);
      assert forall x :: x in assets[1..] ==> x in assets;
    }
  }

  /** When every leaf path is found, every collected path is kept. */
  lemma {:induction false} FoundAll(assets: seq<string>, perFile: map<string, Stat>)
    requires forall i :: 0 <= i < |assets| ==> LeafPath(assets[i]) in perFile
    ensures Found(assets, perFile) == assets
  {
    if assets != [] {
      assert forall i :: 0 <= i < |assets| - 1 ==> assets[1..][i] == assets[i + 1];
      FoundAll(assets[1..], perFile);
    }
  }

  /** When no leaf path is found, nothing is kept. */
  lemma {:induction false} FoundNone(assets: seq<string>, perFile: map<string, Stat>)
    requires forall i :: 0 <= i < |assets| ==> LeafPath(assets[i]) !in perFile
    ensures Found(assets, perFile) == []
  {
    if assets != [] {
      assert forall i :: 0 <= i < |assets| - 1 ==> assets[1..][i] == assets[i + 1];
      FoundNone(assets[1..], perFile);
    }
  }

  /** The link a collected file gets outside production: its base name
      (or the manifest) and the summed stats, under `compiled/`. */
  function AssetLink(s: Settings, t: AssetType, asset: string, manifest: Option<string>, totals: Totals,
                     sha1: string -> string): string {
    "compiled/" + Naming(t, BundleName(s.production, Basename(asset), manifest), totals, s.queryString, sha1).link
  }

  /** Outside production each collected file whose stats the loop finds
      again under its leaf path gets its own cached copy, named by its base
      name and rendered on its own; any other one is passed over. */
  function PerAsset(s: Settings, t: AssetType, assets: seq<string>, perFile: map<string, Stat>, manifest: Option<string>,
                    totals: Totals, dump: seq<string> -> string, cache: map<string, string>, sha1: string -> string)
    : (r: Page)
    ensures r.direct == []
    ensures |r.bundled| == |Found(assets, perFile)|
    ensures Found(assets, perFile) == [] ==> r.cache == cache && r.purges == []
    decreases |assets|
  {
    if assets == [] then Page([], [], cache, [])
    else if LeafPath(assets[0]) !in perFile then PerAsset(s, t, assets[1..], perFile, manifest, totals, dump, cache, sha1)
    else
      var b := BuildHelper(s, t, Basename(assets[0]), manifest, totals, dump([assets[0]]), cache, sha1);
      var rest := PerAsset(s, t, assets[1..], perFile, manifest, totals, dump, b.cache, sha1);
      Page([], [b.href] + rest.bundled, rest.cache, PurgesOf(b) + rest.purges)
  }

  lemma PerAssetSkips(s: Settings, t: AssetType, assets: seq<string>, perFile: map<string, Stat>,
                      manifest: Option<string>, totals: Totals, dump: seq<string> -> string,
                      cache: map<string, string>, sha1: string -> string)
    requires assets != [] && LeafPath(assets[0]) !in perFile
    ensures PerAsset(s, t, assets, perFile, manifest, totals, dump, cache, sha1)
            == PerAsset(s, t, assets[1..], perFile, manifest, totals, dump, cache, sha1)
    ensures Found(assets, perFile) == Found(assets[1..], perFile)
  {
  }

  lemma PerAssetBuilds(s: Settings, t: AssetType, assets: seq<string>, perFile: map<string, Stat>,
                       manifest: Option<string>, totals: Totals, dump: seq<string> -> string,
                       cache: map<string, string>, sha1: string -> string)
    requires assets != [] && LeafPath(assets[0]) in perFile
    ensures var b := BuildHelper(s, t, Basename(assets[0]), manifest, totals, dump([assets[0]]), cache, sha1);
            b.href == AssetLink(s, t, assets[0], manifest, totals, sha1)
            && PerAsset(s, t, assets, perFile, manifest, totals, dump, cache, sha1).bundled
               == [b.href] + PerAsset(s, t, assets[1..], perFile, manifest, totals, dump, b.cache, sha1).bundled
    ensures Found(assets, perFile) == [assets[0]] + Found(assets[1..], perFile)
  {
  }

  lemma ConsLinks(bundled: seq<string>, found: seq<string>, link: string, asset: string,
                  restBundled: seq<string>, restFound: seq<string>, linkOf: string -> string)
    requires bundled == [link] + restBundled && found == [asset] + restFound
    requires link == linkOf(asset)
    requires |restBundled| == |restFound|
    requires forall i :: 0 <= i < |restFound| ==> restBundled[i] == linkOf(restFound[i])
    ensures forall i :: 0 <= i < |found| ==> bundled[i] == linkOf(found[i])
  {
    assert forall i :: 1 <= i < |found| ==> bundled[i] == restBundled[i - 1] && found[i] == restFound[i - 1];
  }

  /** Each collected file found again gets the link named by its own base
      name and the summed stats, in order. */
  lemma {:induction false} PerAssetLinks(s: Settings, t: AssetType, assets: seq<string>, perFile: map<string, Stat>,
                                         manifest: Option<string>, totals: Totals, dump: seq<string> -> string,
                                         cache: map<string, string>, sha1: string -> string)
    ensures var r := PerAsset(s, t, assets, perFile, manifest, totals, dump, cache, sha1);
            var found := Found(assets, perFile);
            forall i :: 0 <= i < |found| ==> r.bundled[i] == AssetLink(s, t, found[i], manifest, totals, sha1)
    decreases |assets|
  {
    if assets != [] {
      if LeafPath(assets[0]) !in perFile {
        PerAssetSkips(s, t, assets, perFile, manifest, totals, dump, cache, sha1);
        PerAssetLinks(s, t, assets[1..], perFile, manifest, totals, dump, cache, sha1);
      } else {
        var b := BuildHelper(s, t, Basename(assets[0]), manifest, totals, dump([assets[0]]), cache, sha1);
        PerAssetBuilds(s, t, assets, perFile, manifest, totals, dump, cache, sha1);
        PerAssetLinks(s, t, assets[1..], perFile, manifest, totals, dump, b.cache, sha1);
        var rest := PerAsset(s, t, assets[1..], perFile, manifest, totals, dump, b.cache, sha1);
        var linkOf := a => AssetLink(s, t, a, manifest, totals, sha1);
        var restFound := Found(assets[1..], perFile);
        assert forall i :: 0 <= i < |restFound| ==> rest.bundled[i] == linkOf(restFound[i]);
        ConsLinks(PerAsset(s, t, assets, perFile, manifest, totals, dump, cache, sha1).bundled, Found(assets, perFile),
                  b.href, assets[0], rest.bundled, restFound, linkOf);
        assert forall i :: 0 <= i < |Found(assets, perFile)| ==> linkOf(Found(assets, perFile)[i])
                                                                  == AssetLink(s, t, Found(assets, perFile)[i], manifest, totals, sha1);
      }
    }
  }

  /** `_runAssets`: gathers the references, then in production builds one
      bundle from all collected files, named by the concatenated raw names
      (or the manifest); otherwise one cached copy per collected file. */
  function RunAssets(c: Config, t: AssetType, files: seq<string>, manifest: Option<string>, fs: map<string, Stat>,
                     dump: seq<string> -> string, cache: map<string, string>, sha1: string -> string)
    : (r: Result<Page, AssetError>)
    ensures r.Success? <==> AllPresent(PathsOf(AssetBase(c.assetsRoot, t), files, t), fs)
    ensures r.Failure? ==> r.error.MissingFile?
    ensures r.Success? && c.production ==> r.value.direct == [] && |r.value.bundled| == 1
    ensures r.Success? && !c.production ==> |r.value.direct| + |r.value.bundled| <= |files|
    ensures r.Success? && !c.production && c.compress ==> r.value.direct == []
  {
    var g :- Gather(t, AssetBase(c.assetsRoot, t), files, fs, !c.production && !c.compress);
    if c.production then
      var b := BuildHelper(SettingsOf(c), t, g.concat, manifest, g.totals, dump(g.assets), cache, sha1);
      Success(Page(g.direct, [b.href], b.cache, PurgesOf(b)))
    else
      var p := PerAsset(SettingsOf(c), t, g.assets, g.perFile, manifest, g.totals, dump, cache, sha1);
      Success(p.(direct := g.direct))
  }

  /** In production every bundle is built without purging older copies. */
  lemma {:induction false} ProductionNeverPurges(c: Config, t: AssetType, files: seq<string>, manifest: Option<string>,
                                               fs: map<string, Stat>, dump: seq<string> -> string,
                                               cache: map<string, string>, sha1: string -> string)
    requires c.production
    requires RunAssets(c, t, files, manifest, fs, dump, cache, sha1).Success?
    ensures RunAssets(c, t, files, manifest, fs, dump, cache, sha1).value.purges == []
  {
    var g := Gather(t, AssetBase(c.assetsRoot, t), files, fs, false).value;
    var b := BuildHelper(SettingsOf(c), t, g.concat, manifest, g.totals, dump(g.assets), cache, sha1);
    assert b.purge == None;
  }

  /** A helper request: a list of references, or the name of a configured
      manifest (`style('main')`). */
  datatype Request = Listed(files: seq<string>) | Named(name: string)

  predicate HasManifest(c: Config, t: AssetType, name: string) {
    t.Ext() in c.manifests && name in c.manifests[t.Ext()]
  }

  /** `style()`/`script()`: a named request reads the manifest's file list
      and passes the name on; an unknown name is an error. */
  function Serve(c: Config, t: AssetType, req: Request, fs: map<string, Stat>,
                 dump: seq<string> -> string, cache: map<string, string>, sha1: string -> string)
    : (r: Result<Page, AssetError>)
    ensures (r.Failure? && r.error.UnknownManifest?) <==> (req.Named? && !HasManifest(c, t, req.name))
    ensures r.Failure? && r.error.UnknownManifest? ==> r.error == UnknownManifest(t, req.name)
    ensures req.Listed? ==> r == RunAssets(c, t, req.files, None, fs, dump, cache, sha1)
    ensures req.Named? && HasManifest(c, t, req.name)
            ==> r == RunAssets(c, t, c.manifests[t.Ext()][req.name], Some(req.name), fs, dump, cache, sha1)
  {
    match req
    case Listed(files) => RunAssets(c, t, files, None, fs, dump, cache, sha1)
    case Named(name) =>
      if !HasManifest(c, t, name) then Failure(UnknownManifest(t, name))
      else RunAssets(c, t, c.manifests[t.Ext()][name], Some(name), fs, dump, cache, sha1)
  }

  /** In production the single link is the one `buildHelper` gives for the
      concatenated names and the summed stats. */
  lemma ProductionBundle(c: Config, t: AssetType, files: seq<string>, manifest: Option<string>, fs: map<string, Stat>,
                         dump: seq<string> -> string, cache: map<string, string>, sha1: string -> string)
    requires c.production
    requires Gather(t, AssetBase(c.assetsRoot, t), files, fs, false).Success?
    ensures var g := Gather(t, AssetBase(c.assetsRoot, t), files, fs, false).value;
            RunAssets(c, t, files, manifest, fs, dump, cache, sha1)
            == Success(Page([], [BuildHelper(SettingsOf(c), t, g.concat, manifest, g.totals, dump(g.assets), cache, sha1).href],
                            BuildHelper(SettingsOf(c), t, g.concat, manifest, g.totals, dump(g.assets), cache, sha1).cache,
                            PurgesOf(BuildHelper(SettingsOf(c), t, g.concat, manifest, g.totals, dump(g.assets), cache, sha1))))
  {
  }

  /** In production the one link is named after every reference's raw
      name, concatenated in order (or after the manifest), and carries the
      sums of every referenced file's mtime and size. */
  lemma ProductionLink(c: Config, t: AssetType, files: seq<string>, manifest: Option<string>, fs: map<string, Stat>,
                       dump: seq<string> -> string, cache: map<string, string>, sha1: string -> string)
    requires c.production
    requires RunAssets(c, t, files, manifest, fs, dump, cache, sha1).Success?
    ensures var paths := PathsOf(AssetBase(c.assetsRoot, t), files, t);
            AllPresent(paths, fs)
            && RunAssets(c, t, files, manifest, fs, dump, cache, sha1).value.bundled
               == ["compiled/" + Naming(t, BundleName(true, Joined(files), manifest),
                                        Totals(SumMtime(paths, fs), SumSize(paths, fs)), c.queryString, sha1).link]
  {
    var base := AssetBase(c.assetsRoot, t);
    GatherJoinsNames(t, base, files, fs);
    GatherTotals(t, base, files, fs, false);
    ProductionBundle(c, t, files, manifest, fs, dump, cache, sha1);
  }

  /** With direct links the `less`/`coffee` references are collected and
      every other one is linked directly with its own mtime. */
  lemma DevelopmentDirectLinks(c: Config, t: AssetType, files: seq<string>, manifest: Option<string>, fs: map<string, Stat>,
                               dump: seq<string> -> string, cache: map<string, string>, sha1: string -> string)
    requires !c.production && !c.compress
    requires RunAssets(c, t, files, manifest, fs, dump, cache, sha1).Success?
    ensures var refs := Refs(AssetBase(c.assetsRoot, t), files, t);
            var g := Gather(t, AssetBase(c.assetsRoot, t), files, fs, true);
            AllExist(refs, fs) && g.Success? && g.value.assets == SpecialPaths(refs)
            && RunAssets(c, t, files, manifest, fs, dump, cache, sha1).value.direct == DirectLinks(refs, fs)
  {
    GatherSplitsDirect(t, AssetBase(c.assetsRoot, t), files, fs);
  }

  /** Outside production each collected file found again under its leaf
      path gets a link named by its own base name and the summed stats of
      every referenced file, in order. */
  lemma DevelopmentBundles(c: Config, t: AssetType, files: seq<string>, manifest: Option<string>, fs: map<string, Stat>,
                           dump: seq<string> -> string, cache: map<string, string>, sha1: string -> string)
    requires !c.production
    requires RunAssets(c, t, files, manifest, fs, dump, cache, sha1).Success?
    ensures var base := AssetBase(c.assetsRoot, t);
            var paths := PathsOf(base, files, t);
            var g := Gather(t, base, files, fs, !c.compress);
            var found := Found(g.value.assets, g.value.perFile);
            var r := RunAssets(c, t, files, manifest, fs, dump, cache, sha1).value;
            g.Success? && AllPresent(paths, fs) && |r.bundled| == |found|
            && forall i :: 0 <= i < |found| ==>
                 r.bundled[i] == AssetLink(SettingsOf(c), t, found[i], manifest,
                                           Totals(SumMtime(paths, fs), SumSize(paths, fs)), sha1)
  {
    var base := AssetBase(c.assetsRoot, t);
    var g := Gather(t, base, files, fs, !c.compress).value;
    GatherTotals(t, base, files, fs, !c.compress);
    PerAssetLinks(SettingsOf(c), t, g.assets, g.perFile, manifest, g.totals, dump, cache, sha1);
  }

  /** One step of the loop collects the last reference's path or nothing. */
  lemma GatherAssetStep(t: AssetType, base: string, files: seq<string>, fs: map<string, Stat>, directLinks: bool)
    requires files != []
    requires Gather(t, base, files, fs, directLinks).Success?
    ensures var front := Gather(t, base, files[..|files| - 1], fs, directLinks);
            var assets := Gather(t, base, files, fs, directLinks).value.assets;
            front.Success?
            && (assets == front.value.assets
                || assets == front.value.assets + [Resolve(base, files[|files| - 1], t).path])
  {
  }

  lemma KeptLeafPaths(before: seq<string>, after: seq<string>, p: string)
    requires forall i :: 0 <= i < |before| ==> LeafPath(before[i]) == before[i]
    requires LeafPath(p) == p
    requires after == before || after == before + [p]
    ensures forall i :: 0 <= i < |after| ==> LeafPath(after[i]) == after[i]
  {
  }

  /** References without a `/` of their own keep the path they were
      collected under through Assetic's split into root and name. */
  lemma {:induction false} GatherLeafPaths(t: AssetType, root: string, files: seq<string>, fs: map<string, Stat>, directLinks: bool)
    requires forall i :: 0 <= i < |files| ==> files[i] != "" && '/' !in files[i]
    requires Gather(t, AssetBase(root, t), files, fs, directLinks).Success?
    ensures var g := Gather(t, AssetBase(root, t), files, fs, directLinks).value;
            forall i :: 0 <= i < |g.assets| ==> LeafPath(g.assets[i]) == g.assets[i]
    decreases |files|
  {
    if files != [] {
      var base := AssetBase(root, t);
      var last := files[|files| - 1];
      GatherAssetStep(t, base, files, fs, directLinks);
      GatherLeafPaths(t, root, files[..|files| - 1], fs, directLinks);
      ResolvedLeafPath(root, last, t);
      KeptLeafPaths(Gather(t, base, files[..|files| - 1], fs, directLinks).value.assets,
                    Gather(t, base, files, fs, directLinks).value.assets, Resolve(base, last, t).path);
    }
  }

  /** When no reference has a `/` of its own, every reference outside
      production gets exactly one link, direct or cached. */
  lemma DevelopmentLinksEveryFile(c: Config, t: AssetType, files: seq<string>, manifest: Option<string>,
                                  fs: map<string, Stat>, dump: seq<string> -> string,
                                  cache: map<string, string>, sha1: string -> string)
    requires !c.production
    requires forall i :: 0 <= i < |files| ==> files[i] != "" && '/' !in files[i]
    requires RunAssets(c, t, files, manifest, fs, dump, cache, sha1).Success?
    ensures var r := RunAssets(c, t, files, manifest, fs, dump, cache, sha1).value;
            |r.direct| + |r.bundled| == |files|
  {
    var base := AssetBase(c.assetsRoot, t);
    var g := Gather(t, base, files, fs, !c.compress).value;
    GatherLeafPaths(t, c.assetsRoot, files, fs, !c.compress);
    GatherAssetsHaveStats(t, base, files, fs, !c.compress);
    assert forall i :: 0 <= i < |g.assets| ==> LeafPath(g.assets[i]) in g.perFile;
    FoundAll(g.assets, g.perFile);
  }

  /** A reference written as `/name` gets no cached link outside
      production unless some reference resolves to the collapsed path that
      Assetic rebuilds from it. */
  lemma LeadingSlashUnlinkedUnlessShared(c: Config, t: AssetType, files: seq<string>, name: string,
                                         manifest: Option<string>, fs: map<string, Stat>,
                                         dump: seq<string> -> string, cache: map<string, string>,
                                         sha1: string -> string)
    requires !c.production
    requires RunAssets(c, t, files, manifest, fs, dump, cache, sha1).Success?
    ensures var base := AssetBase(c.assetsRoot, t);
            var p := Resolve(base, "/" + name, t).path;
            var g := Gather(t, base, files, fs, !c.compress);
            g.Success?
            && (LeafPath(p) !in PathsOf(base, files, t) ==> p !in Found(g.value.assets, g.value.perFile))
  {
    var base := AssetBase(c.assetsRoot, t);
    var g := Gather(t, base, files, fs, !c.compress);
    assert g.Success?;
    GatherPerFile(t, base, files, fs, !c.compress);
    FoundPasses(g.value.assets, g.value.perFile);
  }

  /** Gathering the single reference `/name` finds no collected file
      again under its leaf path. */
  lemma LeadingSlashAloneNotFound(t: AssetType, root: string, name: string, fs: map<string, Stat>, directLinks: bool)
    requires name != "" && '/' !in name
    requires Gather(t, AssetBase(root, t), ["/" + name], fs, directLinks).Success?
    ensures var g := Gather(t, AssetBase(root, t), ["/" + name], fs, directLinks).value;
            Found(g.assets, g.perFile) == []
  {
    var base := AssetBase(root, t);
    var files := ["/" + name];
    var p := Resolve(base, "/" + name, t).path;
    var g := Gather(t, base, files, fs, directLinks).value;
    assert g.assets == [] || g.assets == [p] by {
      GatherAssetStep(t, base, files, fs, directLinks);
      assert files[..0] == [];
    }
    assert LeafPath(p) !in g.perFile by {
      LeadingSlashNotRebuilt(root, name, t);
      assert PathsOf(base, files, t) == [p];
      GatherPerFile(t, base, files, fs, directLinks);
    }
  }

  /** A request for the single file `/name` outside production renders no
      cached link: its leaf path is not the one its stats are recorded
      under, and no other reference records it. */
  lemma LeadingSlashAloneUnlinked(c: Config, t: AssetType, name: string, manifest: Option<string>,
                                  fs: map<string, Stat>, dump: seq<string> -> string,
                                  cache: map<string, string>, sha1: string -> string)
    requires !c.production
    requires name != "" && '/' !in name
    requires RunAssets(c, t, ["/" + name], manifest, fs, dump, cache, sha1).Success?
    ensures RunAssets(c, t, ["/" + name], manifest, fs, dump, cache, sha1).value.bundled == []
  {
    LeadingSlashAloneNotFound(t, c.assetsRoot, name, fs, !c.compress);
    DevelopmentBundles(c, t, ["/" + name], manifest, fs, dump, cache, sha1);
  }

  lemma LinkAssoc(name: string, e: string, h: string)
    ensures "compiled/" + (name + "." + e + "?" + h) == "compiled/" + name + "." + e + "?" + h
  {
  }

  /** In production a named request links to one bundle named after the
      manifest: `compiled/<name>.<ext>?<sha1 of size and mtime>` with the
      query string on. */
  lemma ProductionManifestLink(c: Config, t: AssetType, name: string, fs: map<string, Stat>,
                               dump: seq<string> -> string, cache: map<string, string>, sha1: string -> string)
    requires c.production && c.queryString
    requires !IsPhpFalsy(name) && |name| <= MaxNameLength
    requires Serve(c, t, Named(name), fs, dump, cache, sha1).Success?
    ensures var files := c.manifests[t.Ext()][name];
            var g := Gather(t, AssetBase(c.assetsRoot, t), files, fs, false);
            g.Success?
            && Serve(c, t, Named(name), fs, dump, cache, sha1).value.bundled
               == ["compiled/" + name + "." + t.Ext() + "?"
                   + sha1(NatToString(g.value.totals.size) + NatToString(g.value.totals.modified))]
  {
    var files := c.manifests[t.Ext()][name];
    var g := Gather(t, AssetBase(c.assetsRoot, t), files, fs, false);
    assert g.Success?;
    var b := BuildHelper(SettingsOf(c), t, g.value.concat, Some(name), g.value.totals, dump(g.value.assets), cache, sha1);
    ProductionBundle(c, t, files, Some(name), fs, dump, cache, sha1);
    assert BundleName(true, g.value.concat, Some(name)) == name;
    var h := sha1(NatToString(g.value.totals.size) + NatToString(g.value.totals.modified));
    assert b.href == "compiled/" + (name + "." + t.Ext() + "?" + h);
    LinkAssoc(name, t.Ext(), h);
  }
}

=== FILE: library.dfy ===
/** The plugin's library configuration (`Libraries::get('li3_frontender')`),
    as read by both `Manifest` and the `Assets` helper, with the helper's
    defaults already merged in. */
module Library {

  /** `root`, `mangle`, `cacheString` and `manifests` are what `Manifest`
      reads; `compress`, `queryString`, `assetsRoot` and `production` are
      the helper's keys; `webroot` stands for `FRONTENDER_WEBROOT_DIR`. */
  datatype Config = Config(
    root: string,
    mangle: bool,
    cacheString: string,
    manifests: map<string, map<string, seq<string>>>,
    compress: bool,
    queryString: bool,
    assetsRoot: string,
    production: bool,
    webroot: string)
}

=== FILE: manifest.dfy ===
/** Construction of a `Manifest` and the naming rules it applies: extension
    normalisation, input and output roots, the merged bundle's name and the
    ordered input-to-output mapping of its assets. */
module Manifests {
  import opened Results
  import opened Strings
  import opened Pcre
  import opened PathInfo
  import opened PhpArray
  import opened Library

  /** A constructed manifest; `kind` is the PHP `$type` ("js" or "css" in practice). */
  datatype Manifest = Manifest(
    kind: string,
    name: string,
    filenames: seq<string>,
    inPath: string,
    outPath: string,
    mangle: bool,
    cacheString: string)

  /** The exception the constructor throws. */
  datatype ConstructError = ManifestNotFound(kind: string, name: string)

  predicate KnownKind(kind: string) {
    kind == "js" || kind == "css"
  }

  /** The extensions `appendFileType` leaves alone: `in_array($ftype, $allowed)`. */
  predicate Allowed(ext: string, allowAny: bool) {
    ext == "js" || ext == "css" || (allowAny && (ext == "coffee" || ext == "less"))
  }

  /** `appendFileType`: adds `.kind` unless the path already carries an allowed extension. */
  function AppendFileType(path: string, kind: string, allowAny: bool): (r: string)
    ensures r == path <==> Allowed(Extension(path), allowAny)
    ensures r != path ==> r == path + "." + kind
  {
    var ftype := Extension(path);
    AllowedIsTruthy(ftype, allowAny);
    if IsPhpFalsy(ftype) || !Allowed(ftype, allowAny) then
      AppendedDiffers(path, kind);
      path + "." + kind
    else path
  }

  lemma AllowedIsTruthy(ext: string, allowAny: bool)
    ensures Allowed(ext, allowAny) ==> !IsPhpFalsy(ext)
  {
  }

  lemma AppendedDiffers(path: string, kind: string)
    ensures path + "." + kind != path
  {
    assert |path + "." + kind| > |path|;
  }

  /** For a script or stylesheet type the result always carries an allowed
      extension, so normalising twice changes nothing. */
  lemma AppendFileTypeIdempotent(path: string, kind: string, allowAny: bool)
    requires KnownKind(kind)
    ensures Allowed(Extension(AppendFileType(path, kind, allowAny)), allowAny)
    ensures AppendFileType(AppendFileType(path, kind, allowAny), kind, allowAny)
            == AppendFileType(path, kind, allowAny)
  {
    if !Allowed(Extension(path), allowAny) {
      ExtensionOfAppended(path, kind);
    }
  }

  /** The constructor's `preg_match('/\/$/', ...)` check and `.= '/'`. */
  function EnsureTrailingSlash(p: string): (r: string)
    ensures SlashAtEnd(r)
    ensures r == p <==> SlashAtEnd(p)
    ensures r != p ==> r == p + "/"
    ensures (|p| == 0 || p[|p| - 1] != '\n') ==> r[|r| - 1] == '/'
  {
    if SlashAtEnd(p) then p else p + "/"
  }

  function InPath(c: Config, kind: string): string {
    c.root + "/" + kind
  }

  function OutPath(c: Config, kind: string): string {
    InPath(c, kind) + "/compiled"
  }

  /** `new Manifest($type, $name)`. */
  function NewManifest(c: Config, kind: string, name: string): (r: Result<Manifest, ConstructError>)
    ensures r.Failure? <==> kind !in c.manifests || name !in c.manifests[kind]
    ensures r.Failure? ==> r.error == ManifestNotFound(kind, name)
    ensures r.Success? ==> r.value.kind == kind && r.value.name == name
    ensures r.Success? ==> r.value.filenames == c.manifests[kind][name]
    ensures r.Success? ==> r.value.mangle == c.mangle && r.value.cacheString == c.cacheString
    ensures r.Success? ==> r.value.outPath == c.root + "/" + kind + "/compiled/"
    ensures r.Success? ==> SlashAtEnd(r.value.inPath)
    ensures r.Success? ==> IsPrefix(c.root + "/" + kind, r.value.inPath)
    ensures r.Success? && KnownKind(kind) ==> r.value.inPath == c.root + "/" + kind + "/"
    ensures r.Success? && (|kind| == 0 || kind[|kind| - 1] != '\n') ==> r.value.inPath[|r.value.inPath| - 1] == '/'
  {
    if kind !in c.manifests || name !in c.manifests[kind] then
      Failure(ManifestNotFound(kind, name))
    else
      var inPath := EnsureTrailingSlash(InPath(c, kind));
      var outPath := EnsureTrailingSlash(OutPath(c, kind));
      assert (c.root + "/" + kind + "/compiled")[..|c.root + "/" + kind|] == c.root + "/" + kind;
      assert InPath(c, kind) == c.root + "/" + kind;
      assert InPath(c, kind)[..|InPath(c, kind)|] == InPath(c, kind);
      assert InPath(c, kind) + "/" == c.root + "/" + kind + "/";
      assert (InPath(c, kind) + "/")[..|InPath(c, kind)|] == InPath(c, kind);
      KindEndsInS(c.root, kind);
      Success(Manifest(kind, name, c.manifests[kind][name], inPath, outPath, c.mangle, c.cacheString))
  }

  /** `js` and `css` end in `s`, so the input root never already matches `/\/$/`. */
  lemma KindEndsInS(root: string, kind: string)
    ensures KnownKind(kind) ==> !SlashAtEnd(root + "/" + kind)
  {
    if KnownKind(kind) {
      var p := root + "/" + kind;
      assert p[|p| - 1] == 's';
    }
  }

  /** `mangledFilename`: the merged bundle's path. */
  function MangledFilename(m: Manifest): (r: string)
    ensures IsPrefix(m.outPath + m.name + m.cacheString, r)
    ensures IsSuffix("." + m.kind, r)
    ensures |r| == |m.outPath + m.name + m.cacheString| + 1 + |m.kind|
  {
    var r := m.outPath + m.name + m.cacheString + "." + m.kind;
    assert r[..|m.outPath + m.name + m.cacheString|] == m.outPath + m.name + m.cacheString;
    assert r[|r| - |"." + m.kind|..] == "." + m.kind;
    r
  }

  /** The bundle is a `.js` or `.css` file under `out_path`, whatever the name and cache string. */
  lemma MangledFilenameShape(m: Manifest)
    requires KnownKind(m.kind)
    ensures Extension(MangledFilename(m)) == m.kind
    ensures IsPrefix(m.outPath, MangledFilename(m))
  {
    MangledFilenamePrefix(m);
    ExtensionOfAppended(m.outPath + m.name + m.cacheString, m.kind);
  }

  lemma MangledFilenamePrefix(m: Manifest)
    ensures IsPrefix(m.outPath, MangledFilename(m))
  {
    assert (m.outPath + m.name + m.cacheString + "." + m.kind)[..|m.outPath|] == m.outPath;
  }

  /** A configured filename after `appendFileType($filename, true)`. */
  function NormalizedName(m: Manifest, f: string): string {
    AppendFileType(f, m.kind, true)
  }

  function InputFor(m: Manifest, f: string): string {
    m.inPath + NormalizedName(m, f)
  }

  function OutputFor(m: Manifest, f: string): string {
    AppendFileType(m.outPath + NormalizedName(m, f), m.kind, false)
  }

  /** The input paths of `fs`, in order, duplicates included. */
  function InputsOf(m: Manifest, fs: seq<string>): (r: seq<string>)
    ensures |r| == |fs|
  {
    if |fs| == 0 then [] else InputsOf(m, fs[..|fs| - 1]) + [InputFor(m, fs[|fs| - 1])]
  }

  /** The normalised name a key carries below `in_path`. */
  function KeyName(m: Manifest, k: string): string
    requires IsPrefix(m.inPath, k)
  {
    k[|m.inPath|..]
  }

  /** An entry as `filenameMappings` writes it: the key is a normalised name
      below `in_path`, and the value is that name below `out_path` after
      `appendFileType`. */
  predicate Consistent(m: Manifest, e: Entry<string, string>) {
    && IsPrefix(m.inPath, e.key)
    && e.value == AppendFileType(m.outPath + KeyName(m, e.key), m.kind, false)
    && (KnownKind(m.kind) ==> Allowed(Extension(KeyName(m, e.key)), true))
  }

  lemma EntryForConsistent(m: Manifest, f: string)
    ensures Consistent(m, Entry(InputFor(m, f), OutputFor(m, f)))
  {
    var n := NormalizedName(m, f);
    PrefixOfConcat(m.inPath, n);
    assert (m.inPath + n)[|m.inPath|..] == n;
    if KnownKind(m.kind) {
      AppendFileTypeIdempotent(f, m.kind, true);
    }
  }

  /** The mapping built by the loop of `filenameMappings` over `fs`. */
  function MappingsOf(m: Manifest, fs: seq<string>): (r: seq<Entry<string, string>>)
    ensures UniqueKeys(r)
    ensures forall e :: e in r ==> Consistent(m, e)
  {
    if |fs| == 0 then []
    else
      var f := fs[|fs| - 1];
      var prev := MappingsOf(m, fs[..|fs| - 1]);
      EntryForConsistent(m, f);
      Put(prev, InputFor(m, f), OutputFor(m, f))
  }

  /** `filenameMappings`: one mapping per distinct normalised input, in order
      of first occurrence, each consistent with the manifest. */
  function FilenameMappings(m: Manifest): (r: seq<Entry<string, string>>)
    ensures UniqueKeys(r) && |r| <= |m.filenames|
    ensures Keys(r) == Distinct(InputsOf(m, m.filenames))
    ensures forall e :: e in r ==> Consistent(m, e)
  {
    MappingsKeys(m, m.filenames);
    MappingsOf(m, m.filenames)
  }

  /** The keys are the normalised input paths, deduplicated in order of first
      occurrence; so there are never more mappings than configured filenames. */
  lemma {:induction false} MappingsKeys(m: Manifest, fs: seq<string>)
    ensures Keys(MappingsOf(m, fs)) == Distinct(InputsOf(m, fs))
    ensures |MappingsOf(m, fs)| <= |fs|
  {
    if |fs| > 0 {
      var init, f := fs[..|fs| - 1], fs[|fs| - 1];
      MappingsKeys(m, init);
      DistinctSnoc(InputsOf(m, init), InputFor(m, f));
    }
  }

  lemma AppendFileTypeKeepsPrefix(o: string, n: string, kind: string, allowAny: bool)
    ensures IsPrefix(o, AppendFileType(o + n, kind, allowAny))
  {
    if AppendFileType(o + n, kind, allowAny) != o + n {
      assert o + n + "." + kind == o + (n + "." + kind);
      PrefixOfConcat(o, n + "." + kind);
    } else {
      PrefixOfConcat(o, n);
    }
  }

  lemma KeySplit(m: Manifest, e: Entry<string, string>)
    requires Consistent(m, e)
    ensures e.key == m.inPath + KeyName(m, e.key)
  {
  }

  /** Every mapping reads a normalised name `n` below `in_path` and writes below
      `out_path`, either to `n` itself or to `n` with `.kind` appended; for a script
      or stylesheet manifest the output is always a `.js` or `.css` file. */
  lemma MappingShape(m: Manifest, e: Entry<string, string>)
    requires e in FilenameMappings(m)
    ensures exists n :: e.key == m.inPath + n
                        && (e.value == m.outPath + n || e.value == m.outPath + n + "." + m.kind)
                        && (KnownKind(m.kind) ==> Allowed(Extension(n), true))
    ensures IsPrefix(m.inPath, e.key) && IsPrefix(m.outPath, e.value)
    ensures KnownKind(m.kind) ==> Allowed(Extension(e.value), false)
  {
    var n := KeyName(m, e.key);
    KeySplit(m, e);
    AppendFileTypeKeepsPrefix(m.outPath, n, m.kind, false);
    if KnownKind(m.kind) {
      AppendFileTypeIdempotent(m.outPath + n, m.kind, false);
    }
  }
}

=== FILE: manifest_build.dfy ===
/** What `Manifest::compile` does with the mappings: the copy-or-compile
    decision per asset, the compiler dispatch, the merge into one bundle and the
    process-wide list of processed outputs. External programs are represented by
    the commands the code would run and an exit-status function standing for
    their outcome. */
module ManifestBuild {
  import opened Results
  import opened Strings
  import opened PathInfo
  import opened PhpArray
  import opened Manifests
  import opened Library

  /** The external programs `Manifest` runs through `exec` and `system`. */
  datatype Command =
    | Coffee(source: string)
    | Plessc(source: string)
    | Cp(source: string, destination: string)
    | Uglifyjs(sources: seq<string>, destination: string)
    | Uglifycss(sources: seq<string>, destination: string)

  predicate IsCompiler(c: Command) {
    c.Coffee? || c.Plessc?
  }

  /** Every `exit(1)` of the modelled code, with what it reports. */
  datatype Fatal =
    | UnknownFileType(destination: string)
    | CompileFailed(command: Command)
    | CopyFailed(source: string, destination: string)
    | UnknownType(kind: string)
    | MergeFailed(command: Command)

  /** `needsCompileStep`: an unanchored `/\.coffee|\.less/` over the whole
      input path. It holds for every `.coffee` and `.less` file, so the
      corrected decision below only narrows it. */
  function NeedsCompileStep(path: string): (r: bool)
    ensures NeedsCompileStepFixed(path) ==> r
  {
    FixedHasWord(path);
    Contains(path, ".coffee") || Contains(path, ".less")
  }

  /** The compiler `compileFile` runs on a `.coffee` (coffee) or `.less`
      (plessc) input. */
  function CompilerFor(path: string): (c: Command)
    ensures IsCompiler(c) && c.source == path
    ensures c.Coffee? <==> Extension(path) == "coffee"
  {
    if Extension(path) == "coffee" then Coffee(path) else Plessc(path)
  }

  /** `compileFile`: picks the compiler from the input's extension and
      aborts when it has none for it or when the compiler fails. */
  function CompileFile(path: string, destination: string, status: Command -> int): (r: Result<seq<Command>, Fatal>)
    ensures r == Failure(UnknownFileType(destination)) <==> Extension(path) != "coffee" && Extension(path) != "less"
    ensures r.Success? ==> |r.value| == 1 && IsCompiler(r.value[0]) && r.value[0].source == path
                           && status(r.value[0]) == 0
                           && (r.value[0].Coffee? <==> Extension(path) == "coffee")
    ensures (Extension(path) == "coffee" || Extension(path) == "less") && status(CompilerFor(path)) == 0
            ==> r == Success([CompilerFor(path)])
    ensures (Extension(path) == "coffee" || Extension(path) == "less") && status(CompilerFor(path)) != 0
            ==> r == Failure(CompileFailed(CompilerFor(path)))
    ensures r.Failure? ==> r.error == UnknownFileType(destination) || r.error == CompileFailed(CompilerFor(path))
  {
    var ftype := Extension(path);
    if ftype == "coffee" || ftype == "less" then
      var cmd := CompilerFor(path);
      if status(cmd) != 0 then Failure(CompileFailed(cmd)) else Success([cmd])
    else Failure(UnknownFileType(destination))
  }

  /** Any name given the extension `coffee` or `less` is compiled by its
      own compiler: `coffee` for `.coffee`, `plessc` for `.less`. */
  lemma CompileFileOfAppended(p: string, ext: string, destination: string, status: Command -> int)
    requires ext == "coffee" || ext == "less"
    ensures var cmd := if ext == "coffee" then Coffee(p + "." + ext) else Plessc(p + "." + ext);
            CompileFile(p + "." + ext, destination, status)
            == if status(cmd) == 0 then Success([cmd]) else Failure(CompileFailed(cmd))
  {
    ExtensionOfAppended(p, ext);
  }

  /** `copy`: `cp`, aborting on a non-zero exit status. */
  function Copy(path: string, destination: string, status: Command -> int): (r: Result<seq<Command>, Fatal>)
    ensures r.Success? <==> status(Cp(path, destination)) == 0
    ensures r.Success? ==> r.value == [Cp(path, destination)]
    ensures r.Failure? ==> r.error == CopyFailed(path, destination)
  {
    if status(Cp(path, destination)) != 0 then Failure(CopyFailed(path, destination))
    else Success([Cp(path, destination)])
  }

  /** `copyOrCompile` as written: compiles when the input path contains
      `.coffee` or `.less` anywhere and the output is not yet processed, skips
      when it is, and copies every other input. */
  function CopyOrCompile(input: string, output: string, processed: seq<string>, status: Command -> int)
    : (r: Result<seq<Command>, Fatal>)
    ensures r.Success? ==> forall c :: c in r.value && IsCompiler(c) ==>
              NeedsCompileStep(input) && output !in processed && c == CompilerFor(input)
    ensures !NeedsCompileStep(input) ==> (r.Success? <==> status(Cp(input, output)) == 0)
    ensures !NeedsCompileStep(input) && r.Success? ==> r.value == [Cp(input, output)]
    ensures !NeedsCompileStep(input) ==> r == Copy(input, output, status)
    ensures NeedsCompileStep(input) && output in processed ==> r == Success([])
    ensures NeedsCompileStep(input) && output !in processed ==> r == CompileFile(input, output, status)
    ensures r == Failure(UnknownFileType(output))
            <==> NeedsCompileStep(input) && output !in processed
                 && Extension(input) != "coffee" && Extension(input) != "less"
  {
    if NeedsCompileStep(input) then
      if output !in processed then
        CompileBranch(input, output, status);
        CompileFile(input, output, status)
      else Success([])
    else
      CopyBranch(input, output, status);
      Copy(input, output, status)
  }

  /** What the compile branch can produce: the input's own compiler, or an
      unknown file type exactly for other extensions. */
  lemma CompileBranch(input: string, output: string, status: Command -> int)
    ensures var r := CompileFile(input, output, status);
            (r.Success? ==> r.value == [CompilerFor(input)] && forall c :: c in r.value ==> c == CompilerFor(input))
            && (r == Failure(UnknownFileType(output)) <==> !NeedsCompileStepFixed(input))
            && (r.Failure? && r.error.UnknownFileType? <==> !NeedsCompileStepFixed(input))
  {
  }

  /** What the copy branch can produce: its one `cp`, and never an unknown
      file type. */
  lemma CopyBranch(input: string, output: string, status: Command -> int)
    ensures var r := Copy(input, output, status);
            (r.Success? ==> r.value == [Cp(input, output)] && forall c :: c in r.value ==> !IsCompiler(c))
            && r != Failure(UnknownFileType(output))
            && !(r.Failure? && r.error.UnknownFileType?)
  {
  }

  /** The corrected decision: compile exactly the `.coffee` and `.less` files. */
  predicate NeedsCompileStepFixed(path: string) {
    Extension(path) == "coffee" || Extension(path) == "less"
  }

  /** `copyOrCompile` with the corrected decision; it never reaches the
      unknown-file-type exit. */
  function CopyOrCompileFixed(input: string, output: string, processed: seq<string>, status: Command -> int)
    : (r: Result<seq<Command>, Fatal>)
    ensures !(r.Failure? && r.error.UnknownFileType?)
    ensures r.Success? ==> forall c :: c in r.value && IsCompiler(c) ==>
              NeedsCompileStepFixed(input) && output !in processed && c == CompilerFor(input)
    ensures !NeedsCompileStepFixed(input) ==> (r.Success? <==> status(Cp(input, output)) == 0)
    ensures !NeedsCompileStepFixed(input) && r.Success? ==> r.value == [Cp(input, output)]
    ensures !NeedsCompileStepFixed(input) ==> r == Copy(input, output, status)
    ensures NeedsCompileStepFixed(input) && output in processed ==> r == Success([])
    ensures NeedsCompileStepFixed(input) && output !in processed ==> r == CompileFile(input, output, status)
  {
    if NeedsCompileStepFixed(input) then
      if output !in processed then
        CompileBranch(input, output, status);
        CompileFile(input, output, status)
      else Success([])
    else
      CopyBranch(input, output, status);
      Copy(input, output, status)
  }

  /** A compiled extension always contains its own `.coffee` or `.less`. */
  lemma FixedHasWord(path: string)
    ensures NeedsCompileStepFixed(path) ==> Contains(path, ".coffee") || Contains(path, ".less")
  {
    DottedWords();
    if Extension(path) == "coffee" {
      ExtensionIsContained(path, "coffee", ".coffee");
    } else if Extension(path) == "less" {
      ExtensionIsContained(path, "less", ".less");
    }
  }

  lemma DottedWords()
    ensures "." + "coffee" == ".coffee" && "." + "less" == ".less"
  {
  }

  lemma ExtensionIsContained(path: string, ext: string, w: string)
    requires Extension(path) == ext != ""
    requires w == "." + ext
    ensures Contains(path, w)
  {
    SuffixContained(path, w);
  }

  lemma SuffixContained(s: string, w: string)
    requires IsSuffix(w, s)
    ensures Contains(s, w)
  {
    var a := s[..|s| - |w|];
    assert s == a + w;
    ContainsSuffix(a, w);
  }

  /** Wherever the original runs a program or fails with it, the corrected
      version does the same; they differ only where the original aborts with an
      unknown file type or skips a non-compiled file that is already processed. */
  lemma FixedAgreesWhereOriginalActs(input: string, output: string, processed: seq<string>, status: Command -> int)
    requires CopyOrCompile(input, output, processed, status) != Failure(UnknownFileType(output))
    requires CopyOrCompile(input, output, processed, status) != Success([])
    ensures CopyOrCompileFixed(input, output, processed, status) == CopyOrCompile(input, output, processed, status)
  {
  }

  /** A site rooted in a directory whose name contains `.coffee` (or `.less`)
      sends every plain script through `compileFile`, which exits with
      "unknown file type". */
  lemma UnanchoredMatchAbortsPlainFiles(dir: string, name: string, output: string, processed: seq<string>, status: Command -> int)
    requires Contains(dir, ".coffee")
    requires Extension(dir + name) == "js"
    requires output !in processed
    ensures CopyOrCompile(dir + name, output, processed, status) == Failure(UnknownFileType(output))
    ensures CopyOrCompileFixed(dir + name, output, processed, status).Success?
            <==> status(Cp(dir + name, output)) == 0
  {
    ContainsPrefixed(dir, name, ".coffee");
  }

  lemma ContainsPrefixed(s: string, u: string, w: string)
    requires Contains(s, w)
    ensures Contains(s + u, w)
  {
    var i :| 0 <= i <= |s| && IsPrefix(w, s[i..]);
    assert (s + u)[i..] == s[i..] + u;
    assert (s[i..] + u)[..|w|] == s[i..][..|w|];
  }

  /** The program `merge` runs for a script or stylesheet bundle. */
  function MergeCommand(kind: string, path: string, files: seq<string>): (c: Command)
    requires KnownKind(kind)
    ensures c.Uglifyjs? <==> kind == "js"
    ensures c.Uglifycss? <==> kind == "css"
  {
    if kind == "js" then Uglifyjs(files, path) else Uglifycss(files, path)
  }

  /** `merge`: uglifyjs or uglifycss over the outputs in order. */
  function Merge(kind: string, path: string, files: seq<string>, status: Command -> int): (r: Result<seq<Command>, Fatal>)
    ensures r == Failure(UnknownType(kind)) <==> !KnownKind(kind)
    ensures r.Success? ==> |r.value| == 1 && (r.value[0].Uglifyjs? || r.value[0].Uglifycss?)
                           && r.value[0].sources == files && r.value[0].destination == path
                           && status(r.value[0]) == 0
    ensures r.Success? ==> (r.value[0].Uglifyjs? <==> kind == "js") && (r.value[0].Uglifycss? <==> kind == "css")
    ensures KnownKind(kind) ==> (r.Success? <==> status(MergeCommand(kind, path, files)) == 0)
    ensures KnownKind(kind) && r.Failure? ==> r.error == MergeFailed(MergeCommand(kind, path, files))
  {
    if kind == "js" || kind == "css" then
      var cmd := MergeCommand(kind, path, files);
      if status(cmd) != 0 then Failure(MergeFailed(cmd)) else Success([cmd])
    else Failure(UnknownType(kind))
  }

  /** Which decision the loop of `compile` makes per asset: the unanchored
      match as written, or the corrected test on the extension. */
  datatype Decision = AsWritten | ByExtension

  predicate Compiles(d: Decision, path: string) {
    match d
    case AsWritten => NeedsCompileStep(path)
    case ByExtension => NeedsCompileStepFixed(path)
  }

  function Step(d: Decision, input: string, output: string, processed: seq<string>, status: Command -> int)
    : Result<seq<Command>, Fatal>
  {
    match d
    case AsWritten => CopyOrCompile(input, output, processed, status)
    case ByExtension => CopyOrCompileFixed(input, output, processed, status)
  }

  /** The loop of `compile` from entry `es[0]` on: each entry is copied or
      compiled (unless simulating) and its output then appended to the
      processed list the next entry sees. */
  function CompileEach(d: Decision, es: seq<Entry<string, string>>, processed: seq<string>, simulate: bool,
                       status: Command -> int)
    : (r: Result<seq<Command>, Fatal>)
    ensures simulate ==> r == Success([])
    decreases |es|
  {
    if |es| == 0 then Success([])
    else
      var here := if simulate then Success([]) else Step(d, es[0].key, es[0].value, processed, status);
      match here
      case Failure(f) => Failure(f)
      case Success(cmds) =>
        match CompileEach(d, es[1..], processed + [es[0].value], simulate, status)
        case Failure(f) => Failure(f)
        case Success(rest) =>
          assert simulate ==> cmds + rest == [];
          Success(cmds + rest)
  }

  /** A command the loop may run for the entries `es`: a copy of one entry
      that is not compiled, or the matching compiler on an entry that is
      compiled and whose output was not processed before the loop. */
  predicate RanFor(d: Decision, es: seq<Entry<string, string>>, processed: seq<string>, c: Command) {
    && (c.Cp? ==> Entry(c.source, c.destination) in es && !Compiles(d, c.source))
    && (IsCompiler(c) ==> c == CompilerFor(c.source)
                          && exists e :: e in es && e.key == c.source && e.value !in processed && Compiles(d, e.key))
    && !c.Uglifyjs? && !c.Uglifycss?
  }

  lemma StepRuns(d: Decision, e: Entry<string, string>, processed: seq<string>, status: Command -> int)
    requires Step(d, e.key, e.value, processed, status).Success?
    ensures forall c :: c in Step(d, e.key, e.value, processed, status).value ==>
              (c.Cp? ==> c == Cp(e.key, e.value) && !Compiles(d, e.key))
              && (IsCompiler(c) ==> c == CompilerFor(e.key) && e.value !in processed && Compiles(d, e.key))
              && !c.Uglifyjs? && !c.Uglifycss?
  {
    var ran := Step(d, e.key, e.value, processed, status).value;
    if !Compiles(d, e.key) {
      assert ran == [Cp(e.key, e.value)];
    } else if e.value in processed {
      assert ran == [];
    } else {
      assert ran == [CompilerFor(e.key)];
    }
  }

  /** Every program the loop runs belongs to one of its entries. */
  lemma {:induction false} CompileEachRuns(d: Decision, es: seq<Entry<string, string>>, processed: seq<string>,
                                           simulate: bool, status: Command -> int)
    requires CompileEach(d, es, processed, simulate, status).Success?
    ensures forall c :: c in CompileEach(d, es, processed, simulate, status).value ==> RanFor(d, es, processed, c)
    decreases |es|
  {
    if |es| > 0 && !simulate {
      var cmds := Step(d, es[0].key, es[0].value, processed, status).value;
      var processed' := processed + [es[0].value];
      StepRuns(d, es[0], processed, status);
      CompileEachRuns(d, es[1..], processed', simulate, status);
      var rest := CompileEach(d, es[1..], processed', simulate, status).value;
      forall c | c in cmds + rest
        ensures RanFor(d, es, processed, c)
      {
        if c in cmds {
          assert es[0] in es;
        } else {
          assert RanFor(d, es[1..], processed', c);
          if c.Cp? {
            assert Entry(c.source, c.destination) in es;
          }
          if IsCompiler(c) {
            var e :| e in es[1..] && e.key == c.source && e.value !in processed' && Compiles(d, e.key);
            assert e in es;
          }
        }
      }
    }
  }

  /** What the loop must have run for the entry `e`, given the processed list
      `seen` it met there: its copy, or its compiler if its output was new. */
  predicate Performed(d: Decision, e: Entry<string, string>, seen: seq<string>, ran: seq<Command>) {
    && (!Compiles(d, e.key) ==> Cp(e.key, e.value) in ran)
    && (Compiles(d, e.key) && e.value !in seen ==> CompilerFor(e.key) in ran)
  }

  lemma StepPerforms(d: Decision, e: Entry<string, string>, processed: seq<string>, status: Command -> int)
    requires Step(d, e.key, e.value, processed, status).Success?
    ensures Performed(d, e, processed, Step(d, e.key, e.value, processed, status).value)
  {
    if Compiles(d, e.key) && e.value !in processed && d.AsWritten? {
      assert CopyOrCompile(e.key, e.value, processed, status) == CompileFile(e.key, e.value, status);
    }
  }

  /** The processed list the entry `es[i]` meets: the initial list and the
      outputs of the entries before it. */
  lemma SeenShift(es: seq<Entry<string, string>>, processed: seq<string>, i: nat)
    requires 1 <= i < |es|
    ensures (processed + [es[0].value]) + Values(es[1..][..i - 1]) == processed + Values(es[..i])
  {
    assert Values(es[..i]) == [es[0].value] + Values(es[1..][..i - 1]);
  }

  /** Nothing is left out: every entry was copied, or compiled when its
      output had not been processed before it. */
  lemma {:induction false} CompileEachCovers(d: Decision, es: seq<Entry<string, string>>, processed: seq<string>,
                                             status: Command -> int)
    requires CompileEach(d, es, processed, false, status).Success?
    ensures forall i :: 0 <= i < |es| ==>
              Performed(d, es[i], processed + Values(es[..i]), CompileEach(d, es, processed, false, status).value)
    decreases |es|
  {
    if |es| > 0 {
      var cmds := Step(d, es[0].key, es[0].value, processed, status).value;
      var processed' := processed + [es[0].value];
      var rest := CompileEach(d, es[1..], processed', false, status).value;
      var ran := CompileEach(d, es, processed, false, status).value;
      assert ran == cmds + rest;
      StepPerforms(d, es[0], processed, status);
      CompileEachCovers(d, es[1..], processed', status);
      forall i | 0 <= i < |es|
        ensures Performed(d, es[i], processed + Values(es[..i]), ran)
      {
        if i == 0 {
          assert processed + Values(es[..0]) == processed;
        } else {
          SeenShift(es, processed, i);
          assert es[i] == es[1..][i - 1];
          assert Performed(d, es[1..][i - 1], processed' + Values(es[1..][..i - 1]), rest);
        }
      }
    }
  }

  /** The step the loop takes for entry `es[i]`, against the processed list
      it meets there. */
  function StepAt(d: Decision, es: seq<Entry<string, string>>, processed: seq<string>, i: nat,
                  status: Command -> int): Result<seq<Command>, Fatal>
    requires i < |es|
  {
    Step(d, es[i].key, es[i].value, processed + Values(es[..i]), status)
  }

  lemma StepAtFirst(d: Decision, es: seq<Entry<string, string>>, processed: seq<string>, status: Command -> int)
    requires |es| > 0
    ensures StepAt(d, es, processed, 0, status) == Step(d, es[0].key, es[0].value, processed, status)
  {
    assert es[..0] == [];
    assert processed + Values(es[..0]) == processed;
  }

  lemma StepAtShift(d: Decision, es: seq<Entry<string, string>>, processed: seq<string>, i: nat,
                    status: Command -> int)
    requires 1 <= i < |es|
    ensures StepAt(d, es, processed, i, status) == StepAt(d, es[1..], processed + [es[0].value], i - 1, status)
  {
    SeenShift(es, processed, i);
    assert es[1..][i - 1] == es[i];
  }

  /** One turn of the loop: the first step, then the rest against the
      processed list with the first output added. */
  lemma CompileEachUnfold(d: Decision, es: seq<Entry<string, string>>, processed: seq<string>, status: Command -> int)
    requires |es| > 0
    ensures var r := CompileEach(d, es, processed, false, status);
            var here := StepAt(d, es, processed, 0, status);
            var rest := CompileEach(d, es[1..], processed + [es[0].value], false, status);
            && (r.Success? <==> here.Success? && rest.Success?)
            && (here.Failure? ==> r == Failure(here.error))
            && (here.Success? && rest.Failure? ==> r == Failure(rest.error))
  {
    StepAtFirst(d, es, processed, status);
  }

  predicate AllStepsSucceed(d: Decision, es: seq<Entry<string, string>>, processed: seq<string>, status: Command -> int) {
    forall i :: 0 <= i < |es| ==> StepAt(d, es, processed, i, status).Success?
  }

  lemma StepsShift(d: Decision, es: seq<Entry<string, string>>, processed: seq<string>, status: Command -> int)
    requires |es| > 0
    ensures forall i :: 1 <= i < |es| ==>
              StepAt(d, es, processed, i, status) == StepAt(d, es[1..], processed + [es[0].value], i - 1, status)
  {
    forall i | 1 <= i < |es|
      ensures StepAt(d, es, processed, i, status) == StepAt(d, es[1..], processed + [es[0].value], i - 1, status)
    {
      StepAtShift(d, es, processed, i, status);
    }
  }

  /** Every step succeeds exactly when the first does and every later one,
      seen from the rest of the entries, does. */
  lemma AllStepsShift(d: Decision, es: seq<Entry<string, string>>, processed: seq<string>, status: Command -> int)
    requires |es| > 0
    ensures AllStepsSucceed(d, es, processed, status)
            <==> StepAt(d, es, processed, 0, status).Success?
                 && AllStepsSucceed(d, es[1..], processed + [es[0].value], status)
  {
    var processed' := processed + [es[0].value];
    StepsShift(d, es, processed, status);
    if AllStepsSucceed(d, es, processed, status) {
      forall j | 0 <= j < |es| - 1
        ensures StepAt(d, es[1..], processed', j, status).Success?
      {
        assert StepAt(d, es, processed, j + 1, status).Success?;
      }
    } else if StepAt(d, es, processed, 0, status).Success? {
      var i :| 0 <= i < |es| && !StepAt(d, es, processed, i, status).Success?;
      assert !StepAt(d, es[1..], processed', i - 1, status).Success?;
    }
  }

  /** A real run of the loop gets through exactly when every copy and every
      compile it attempts succeeds: any failing step ends it with `exit(1)`. */
  lemma {:induction false} CompileEachSucceeds(d: Decision, es: seq<Entry<string, string>>, processed: seq<string>,
                                               status: Command -> int)
    ensures CompileEach(d, es, processed, false, status).Success?
            <==> forall i :: 0 <= i < |es| ==> StepAt(d, es, processed, i, status).Success?
    decreases |es|
  {
    if |es| == 0 {
      assert CompileEach(d, es, processed, false, status) == Success([]);
    } else {
      CompileEachUnfold(d, es, processed, status);
      CompileEachSucceeds(d, es[1..], processed + [es[0].value], status);
      AllStepsShift(d, es, processed, status);
    }
  }

  /** Entry `es[k]` is the first whose step fails, and it fails with `e`. */
  predicate FirstFailureAt(d: Decision, es: seq<Entry<string, string>>, processed: seq<string>, k: nat, e: Fatal,
                           status: Command -> int) {
    && k < |es|
    && (forall i :: 0 <= i < k ==> StepAt(d, es, processed, i, status).Success?)
    && StepAt(d, es, processed, k, status) == Failure(e)
  }

  lemma FirstFailureShift(d: Decision, es: seq<Entry<string, string>>, processed: seq<string>, k: nat, e: Fatal,
                          status: Command -> int)
    requires |es| > 0 && StepAt(d, es, processed, 0, status).Success?
    requires FirstFailureAt(d, es[1..], processed + [es[0].value], k, e, status)
    ensures FirstFailureAt(d, es, processed, k + 1, e, status)
  {
    forall i | 1 <= i < k + 2 && i < |es|
      ensures StepAt(d, es, processed, i, status) == StepAt(d, es[1..], processed + [es[0].value], i - 1, status)
    {
      StepAtShift(d, es, processed, i, status);
    }
  }

  /** A failed run reports the error of its first failing step; every step
      before it succeeded. */
  lemma {:induction false} CompileEachFirstFailure(d: Decision, es: seq<Entry<string, string>>, processed: seq<string>,
                                                   status: Command -> int)
    requires CompileEach(d, es, processed, false, status).Failure?
    ensures exists k :: FirstFailureAt(d, es, processed, k, CompileEach(d, es, processed, false, status).error, status)
    decreases |es|
  {
    var e := CompileEach(d, es, processed, false, status).error;
    var processed' := processed + [es[0].value];
    CompileEachUnfold(d, es, processed, status);
    if StepAt(d, es, processed, 0, status).Success? {
      CompileEachFirstFailure(d, es[1..], processed', status);
      var k :| FirstFailureAt(d, es[1..], processed', k, e, status);
      FirstFailureShift(d, es, processed, k, e, status);
    } else {
      assert FirstFailureAt(d, es, processed, 0, e, status);
    }
  }

  /** Every program a successful step ran exited with status 0. */
  lemma StepExitsZero(d: Decision, input: string, output: string, processed: seq<string>, status: Command -> int)
    requires Step(d, input, output, processed, status).Success?
    ensures forall c :: c in Step(d, input, output, processed, status).value ==> status(c) == 0
  {
    match d
    case AsWritten => CopyOrCompileExitsZero(input, output, processed, status);
    case ByExtension => CopyOrCompileFixedExitsZero(input, output, processed, status);
  }

  lemma CopyOrCompileExitsZero(input: string, output: string, processed: seq<string>, status: Command -> int)
    requires CopyOrCompile(input, output, processed, status).Success?
    ensures forall c :: c in CopyOrCompile(input, output, processed, status).value ==> status(c) == 0
  {
    if !NeedsCompileStep(input) {
      CopyBranch(input, output, status);
    } else if output !in processed {
      CompileBranch(input, output, status);
    }
  }

  lemma CopyOrCompileFixedExitsZero(input: string, output: string, processed: seq<string>, status: Command -> int)
    requires CopyOrCompileFixed(input, output, processed, status).Success?
    ensures forall c :: c in CopyOrCompileFixed(input, output, processed, status).value ==> status(c) == 0
  {
    if !NeedsCompileStepFixed(input) {
      CopyBranch(input, output, status);
    } else if output !in processed {
      CompileBranch(input, output, status);
    }
  }

  /** Every program a successful real run of the loop ran exited with
      status 0. */
  lemma {:induction false} CompileEachExitsZero(d: Decision, es: seq<Entry<string, string>>, processed: seq<string>,
                                                status: Command -> int)
    requires CompileEach(d, es, processed, false, status).Success?
    ensures forall c :: c in CompileEach(d, es, processed, false, status).value ==> status(c) == 0
    decreases |es|
  {
    if |es| > 0 {
      var processed' := processed + [es[0].value];
      StepExitsZero(d, es[0].key, es[0].value, processed, status);
      CompileEachExitsZero(d, es[1..], processed', status);
      var cmds := Step(d, es[0].key, es[0].value, processed, status).value;
      var rest := CompileEach(d, es[1..], processed', false, status).value;
      assert CompileEach(d, es, processed, false, status).value == cmds + rest;
    }
  }

  /** The corrected decision never aborts with an unknown file type. */
  lemma {:induction false} FixedEachKnowsFileTypes(es: seq<Entry<string, string>>, processed: seq<string>,
                                                   simulate: bool, status: Command -> int)
    ensures !(CompileEach(ByExtension, es, processed, simulate, status).Failure?
              && CompileEach(ByExtension, es, processed, simulate, status).error.UnknownFileType?)
    decreases |es|
  {
    if |es| > 0 {
      FixedEachKnowsFileTypes(es[1..], processed + [es[0].value], simulate, status);
    }
  }

  /** Hence `compile` with the corrected decision never aborts with an
      unknown file type either. */
  lemma FixedCompileKnowsFileTypes(m: Manifest, processed: seq<string>, simulate: bool, status: Command -> int)
    ensures !(Compile(m, ByExtension, processed, simulate, status).Failure?
              && Compile(m, ByExtension, processed, simulate, status).error.UnknownFileType?)
  {
    FixedEachKnowsFileTypes(FilenameMappings(m), processed, simulate, status);
  }

  /** What `compile` hands back: the returned paths, the process-wide
      `$processed` list afterwards, and the programs run. */
  datatype Build = Build(paths: seq<string>, processed: seq<string>, ran: seq<Command>)

  /** `compile($simulate)` with decision `d` (`AsWritten` is the source):
      one bundle path when mangling, otherwise every mapping's output in
      mapping order; every output joins `$processed`. */
  function Compile(m: Manifest, d: Decision, processed: seq<string>, simulate: bool, status: Command -> int)
    : (r: Result<Build, Fatal>)
    ensures r.Success? ==> r.value.processed == processed + Values(FilenameMappings(m))
    ensures r.Success? && m.mangle ==> r.value.paths == [MangledFilename(m)]
    ensures r.Success? && !m.mangle ==> r.value.paths == Values(FilenameMappings(m))
    ensures simulate ==> r.Success? && r.value.ran == []
  {
    var es := FilenameMappings(m);
    var outs := Values(es);
    match CompileEach(d, es, processed, simulate, status)
    case Failure(f) => Failure(f)
    case Success(ran) =>
      if m.mangle then
        var mangled := MangledFilename(m);
        var merged := if simulate then Success([]) else Merge(m.kind, mangled, outs, status);
        match merged
        case Failure(f) => Failure(f)
        case Success(mran) => Success(Build([mangled], processed + outs, ran + mran))
      else Success(Build(outs, processed + outs, ran))
  }

  /** A real `compile` succeeds exactly when the loop does and, when
      mangling, the merge exits with 0; a failure is the loop's error or the
      merge's. Every program a successful run ran exited with 0. */
  lemma CompileSucceeds(m: Manifest, d: Decision, processed: seq<string>, status: Command -> int)
    ensures var r := Compile(m, d, processed, false, status);
            var each := CompileEach(d, FilenameMappings(m), processed, false, status);
            var merge := Merge(m.kind, MangledFilename(m), Values(FilenameMappings(m)), status);
            && (r.Success? <==> each.Success? && (m.mangle ==> merge.Success?))
            && (r.Failure? && each.Failure? ==> r.error == each.error)
            && (r.Failure? && each.Success? ==> m.mangle && r.error == merge.error)
            && (r.Success? ==> forall c :: c in r.value.ran ==> status(c) == 0)
  {
    var es := FilenameMappings(m);
    var r := Compile(m, d, processed, false, status);
    if r.Success? {
      CompileEachExitsZero(d, es, processed, status);
      var each := CompileEach(d, es, processed, false, status).value;
      if m.mangle {
        assert r.value.ran == each + Merge(m.kind, MangledFilename(m), Values(es), status).value;
      }
    }
  }

  /** `$simulate` only suppresses the programs: a successful real run returns
      the same paths and leaves the same processed list as a simulated one. */
  lemma SimulateSameResult(m: Manifest, d: Decision, processed: seq<string>, status: Command -> int)
    requires Compile(m, d, processed, false, status).Success?
    ensures Compile(m, d, processed, true, status).Success?
    ensures Compile(m, d, processed, true, status).value.paths == Compile(m, d, processed, false, status).value.paths
    ensures Compile(m, d, processed, true, status).value.processed == Compile(m, d, processed, false, status).value.processed
  {
  }

  /** With `mangle` on, a manifest compiles to exactly one file: the mangled
      name under the output directory, whose extension is the manifest's
      kind. */
  lemma CompileMangledOutput(m: Manifest, d: Decision, processed: seq<string>, simulate: bool, status: Command -> int)
    requires Compile(m, d, processed, simulate, status).Success?
    requires m.mangle
    ensures |Compile(m, d, processed, simulate, status).value.paths| == 1
    ensures IsPrefix(m.outPath, Compile(m, d, processed, simulate, status).value.paths[0])
    ensures KnownKind(m.kind) ==> Extension(Compile(m, d, processed, simulate, status).value.paths[0]) == m.kind
  {
    MangledFilenamePrefix(m);
    if KnownKind(m.kind) {
      MangledFilenameShape(m);
    }
  }

  /** A real mangled run ends with the one merge of every mapping output,
      in mapping order, into the bundle; the loop before it merges nothing. */
  lemma CompileMergesOutputs(m: Manifest, d: Decision, processed: seq<string>, status: Command -> int)
    requires Compile(m, d, processed, false, status).Success?
    requires m.mangle
    ensures KnownKind(m.kind)
    ensures var ran := Compile(m, d, processed, false, status).value.ran;
            |ran| > 0
            && ran[|ran| - 1] == MergeCommand(m.kind, MangledFilename(m), Values(FilenameMappings(m)))
            && forall i :: 0 <= i < |ran| - 1 ==> !ran[i].Uglifyjs? && !ran[i].Uglifycss?
  {
    var es := FilenameMappings(m);
    var each := CompileEach(d, es, processed, false, status).value;
    CompileEachRuns(d, es, processed, false, status);
    var ran := Compile(m, d, processed, false, status).value.ran;
    assert ran == each + [MergeCommand(m.kind, MangledFilename(m), Values(es))];
    assert forall c :: c in each ==> !c.Uglifyjs? && !c.Uglifycss?;
    MergeLast(each, MergeCommand(m.kind, MangledFilename(m), Values(es)), ran);
  }

  lemma MergeLast(each: seq<Command>, merge: Command, ran: seq<Command>)
    requires ran == each + [merge]
    requires forall c :: c in each ==> !c.Uglifyjs? && !c.Uglifycss?
    ensures |ran| > 0 && ran[|ran| - 1] == merge
    ensures forall i :: 0 <= i < |ran| - 1 ==> !ran[i].Uglifyjs? && !ran[i].Uglifycss?
  {
    assert forall i :: 0 <= i < |ran| - 1 ==> ran[i] == each[i];
  }

  /** Without `mangle`, compiling yields at most one output per listed file,
      each under the output directory and carrying a plain `js`/`css`
      extension. */
  lemma CompileUnmangledOutputs(m: Manifest, d: Decision, processed: seq<string>, simulate: bool, status: Command -> int)
    requires Compile(m, d, processed, simulate, status).Success?
    requires !m.mangle
    ensures |Compile(m, d, processed, simulate, status).value.paths| <= |m.filenames|
    ensures forall p :: p in Compile(m, d, processed, simulate, status).value.paths ==>
              IsPrefix(m.outPath, p) && (KnownKind(m.kind) ==> Allowed(Extension(p), false))
  {
    MappingsKeys(m, m.filenames);
    forall p | p in Values(FilenameMappings(m))
      ensures IsPrefix(m.outPath, p) && (KnownKind(m.kind) ==> Allowed(Extension(p), false))
    {
      ValueShape(m, p);
    }
  }

  lemma ValueShape(m: Manifest, p: string)
    requires p in Values(FilenameMappings(m))
    ensures IsPrefix(m.outPath, p) && (KnownKind(m.kind) ==> Allowed(Extension(p), false))
  {
    var es := FilenameMappings(m);
    var i :| 0 <= i < |es| && Values(es)[i] == p;
    MappingShape(m, es[i]);
  }

  /** What a real run of `compile` ran: the loop's programs, then the merge
      when mangling. */
  lemma CompileRanShape(m: Manifest, d: Decision, processed: seq<string>, status: Command -> int)
    requires Compile(m, d, processed, false, status).Success?
    ensures CompileEach(d, FilenameMappings(m), processed, false, status).Success?
    ensures var ran := Compile(m, d, processed, false, status).value.ran;
            var each := CompileEach(d, FilenameMappings(m), processed, false, status).value;
            ran == each
            || (KnownKind(m.kind) && ran == each + [MergeCommand(m.kind, MangledFilename(m), Values(FilenameMappings(m)))])
  {
  }

  /** A loop that starts with every output already processed runs no
      compiler. */
  lemma ProcessedBlocksCompilers(d: Decision, es: seq<Entry<string, string>>, processed: seq<string>, ran: seq<Command>)
    requires forall c :: c in ran ==> RanFor(d, es, processed + Values(es), c)
    ensures forall c :: c in ran ==> !IsCompiler(c)
  {
  }

  /** `$processed` makes compilation happen once per process: running
      `compile` again after a successful run starts no compiler, because
      every output is already processed. */
  lemma RecompileRunsNoCompiler(m: Manifest, d: Decision, processed: seq<string>, status: Command -> int)
    requires Compile(m, d, processed, false, status).Success?
    ensures var again := Compile(m, d, Compile(m, d, processed, false, status).value.processed, false, status);
            again.Success? ==> forall c :: c in again.value.ran ==> !IsCompiler(c)
  {
    var es := FilenameMappings(m);
    var processed' := Compile(m, d, processed, false, status).value.processed;
    assert processed' == processed + Values(es);
    var again := Compile(m, d, processed', false, status);
    if again.Success? {
      CompileRanShape(m, d, processed', status);
      var each := CompileEach(d, es, processed', false, status).value;
      CompileEachRuns(d, es, processed', false, status);
      ProcessedBlocksCompilers(d, es, processed, each);
    }
  }

  /** The as-written decision on a whole manifest: under the root
      `/w.coffee`, the js manifest `["x.js"]` reads `/w.coffee/js/x.js`,
      which the unanchored match sends to `compileFile`, so `compile()`
      aborts with "unknown file type". */
  lemma CoffeeRootAbortsCompile(c: Config, m: Manifest, status: Command -> int)
    requires c.root == "/w.coffee"
    requires NewManifest(c, "js", "main") == Success(m) && m.filenames == ["x.js"]
    ensures Compile(m, AsWritten, [], false, status) == Failure(UnknownFileType(m.outPath + "x.js"))
    ensures Compile(m, ByExtension, [], false, status) != Failure(UnknownFileType(m.outPath + "x.js"))
  {
    CoffeeRootFacts(c, m);
    MatchedScriptAborts(m, status);
    FixedCompileKnowsFileTypes(m, [], false, status);
  }

  /** A failing loop makes `compile` fail with the same error. */
  lemma CompileStopsWithLoop(m: Manifest, d: Decision, processed: seq<string>, simulate: bool, status: Command -> int)
    requires CompileEach(d, FilenameMappings(m), processed, simulate, status).Failure?
    ensures Compile(m, d, processed, simulate, status)
            == Failure(CompileEach(d, FilenameMappings(m), processed, simulate, status).error)
  {
  }

  /** A loop over one entry fails when that entry's step fails. */
  lemma SingleEntryFails(d: Decision, e: Entry<string, string>, processed: seq<string>, status: Command -> int)
    requires Step(d, e.key, e.value, processed, status).Failure?
    ensures CompileEach(d, [e], processed, false, status) == Failure(Step(d, e.key, e.value, processed, status).error)
  {
  }

  /** A matched `.js` input not yet processed aborts the as-written step. */
  lemma MatchedScriptStep(input: string, output: string, status: Command -> int)
    requires NeedsCompileStep(input) && Extension(input) == "js"
    ensures Step(AsWritten, input, output, [], status) == Failure(UnknownFileType(output))
  {
  }

  /** A single matched `.js` entry aborts the as-written loop. */
  lemma MatchedScriptAborts(m: Manifest, status: Command -> int)
    requires FilenameMappings(m) == [Entry(m.inPath + "x.js", m.outPath + "x.js")]
    requires NeedsCompileStep(m.inPath + "x.js") && Extension(m.inPath + "x.js") == "js"
    ensures Compile(m, AsWritten, [], false, status) == Failure(UnknownFileType(m.outPath + "x.js"))
  {
    var e := FilenameMappings(m)[0];
    MatchedScriptStep(e.key, e.value, status);
    SingleEntryFails(AsWritten, e, [], status);
    CompileStopsWithLoop(m, AsWritten, [], false, status);
  }

  lemma CoffeeRootFacts(c: Config, m: Manifest)
    requires c.root == "/w.coffee"
    requires NewManifest(c, "js", "main") == Success(m) && m.filenames == ["x.js"]
    ensures m.kind == "js"
    ensures FilenameMappings(m) == [Entry(m.inPath + "x.js", m.outPath + "x.js")]
    ensures NeedsCompileStep(m.inPath + "x.js") && Extension(m.inPath + "x.js") == "js"
  {
    OneMapping(m);
    assert m.inPath == c.root + "/" + "js" + "/";
    CoffeeRootContains(c.root, "x.js");
    ScriptKept(m.inPath);
  }

  /** Everything under `/w.coffee/js/` contains `.coffee`. */
  lemma CoffeeRootContains(root: string, input: string)
    requires root == "/w.coffee"
    ensures Contains(root + "/" + "js" + "/" + input, ".coffee")
  {
    assert root == "/w" + ".coffee";
    ContainsSuffix("/w", ".coffee");
    ContainsPrefixed(root, "/", ".coffee");
    ContainsPrefixed(root + "/", "js", ".coffee");
    ContainsPrefixed(root + "/" + "js", "/", ".coffee");
    ContainsPrefixed(root + "/" + "js" + "/", input, ".coffee");
  }

  /** The manifest `["x.js"]` maps `in_path` plus `x.js` to `out_path` plus `x.js`. */
  lemma OneMapping(m: Manifest)
    requires m.kind == "js" && m.filenames == ["x.js"]
    ensures FilenameMappings(m) == [Entry(m.inPath + "x.js", m.outPath + "x.js")]
  {
    ScriptKept("");
    assert "" + "x.js" == "x.js";
    ScriptKept(m.outPath);
    assert InputFor(m, "x.js") == m.inPath + "x.js";
    assert OutputFor(m, "x.js") == m.outPath + "x.js";
    assert m.filenames[..0] == [];
    assert MappingsOf(m, []) == [];
    assert Keys(MappingsOf(m, [])) == [];
  }

  /** A name ending in `x.js` keeps its name and its `js` extension. */
  lemma ScriptKept(o: string)
    ensures Extension(o + "x.js") == "js"
    ensures AppendFileType(o + "x.js", "js", true) == o + "x.js"
    ensures AppendFileType(o + "x.js", "js", false) == o + "x.js"
  {
    assert "x.js" == "x" + "." + "js";
    assert o + "x.js" == o + "x" + "." + "js";
    ExtensionOfAppended(o + "x", "js");
  }
}

=== FILE: path_info.dfy ===
/** PHP's `pathinfo($path, PATHINFO_EXTENSION)`: the text after the last `.` of
    the part of the path after its last `/`, or "" when that part has no `.`;
    and PHP's `dirname`. */
module PathInfo {
  import opened Strings

  /** The part of the path after its last `/`; the whole path when it has none. */
  function Basename(p: string): (r: string)
    ensures IsSuffix(r, p) && '/' !in r
    ensures '/' in p ==> |r| < |p| && p[|p| - |r| - 1] == '/'
    ensures '/' !in p ==> r == p
  {
    AfterLast(p, '/')
  }

  function Extension(p: string): (r: string)
    ensures '.' !in r && '/' !in r
    ensures r != "" ==> IsSuffix("." + r, p)
  {
    var b := Basename(p);
    if '.' in b then
      var r := AfterLast(b, '.');
      DotBeforeLast(b, r);
      SuffixOfSuffix("." + r, b, p);
      NotInSuffix(r, b, '/');
      r
    else ""
  }

  lemma DotBeforeLast(b: string, r: string)
    requires '.' in b && r == AfterLast(b, '.')
    ensures IsSuffix("." + r, b)
  {
    assert b[|b| - |r| - 1..] == "." + r;
  }

  lemma SuffixOfSuffix(a: string, b: string, c: string)
    requires IsSuffix(a, b) && IsSuffix(b, c)
    ensures IsSuffix(a, c)
  {
    assert c[|c| - |a|..] == b[|b| - |a|..];
  }

  lemma NotInSuffix(a: string, b: string, x: char)
    requires IsSuffix(a, b) && x !in b
    ensures x !in a
  {
    assert forall i :: 0 <= i < |a| ==> a[i] == b[|b| - |a| + i];
  }

  /** Appending `.t` sets the extension to `t`. */
  lemma ExtensionOfAppended(p: string, t: string)
    requires '/' !in t && '.' !in t
    ensures Extension(p + "." + t) == t
  {
    var a := AfterLast(p, '/');
    DotThen(t);
    AfterLastConcat(p, "." + t, '/');
    Assoc(p, ".", t);
    assert Basename(p + "." + t) == a + ("." + t);
    Assoc(a, ".", t);
    DotInside(a, t);
    AfterLastConcat(a + ".", t, '.');
    AfterLastSnoc(a, '.', '.');
  }

  lemma DotThen(t: string)
    requires '/' !in t
    ensures '/' !in "." + t
  {
    assert ("." + t)[1..] == t;
  }

  lemma DotInside(a: string, t: string)
    ensures '.' in a + "." + t
  {
    assert (a + "." + t)[|a|] == '.';
  }

  /** `p` without its trailing slashes. */
  function StripSlashes(p: string): (r: string)
    ensures IsPrefix(r, p)
    ensures r == "" || r[|r| - 1] != '/'
    decreases |p|
  {
    if p != "" && p[|p| - 1] == '/' then StripSlashes(p[..|p| - 1]) else p
  }

  /** `p` without the name after its last `/`. */
  function StripName(p: string): (r: string)
    ensures IsPrefix(r, p)
    ensures r == "" || r[|r| - 1] == '/'
    decreases |p|
  {
    if p != "" && p[|p| - 1] != '/' then StripName(p[..|p| - 1]) else p
  }

  /** PHP's `dirname`: drop trailing slashes, then the last name, then the
      slashes before it; "/" when only slashes remain, "." when the path
      has no directory part, "" for the empty path. */
  function Dirname(p: string): string {
    if p == "" then ""
    else
      var a := StripSlashes(p);
      if a == "" then "/"
      else
        var b := StripName(a);
        if b == "" then "."
        else
          var d := StripSlashes(b);
          if d == "" then "/" else d
  }

  lemma {:induction false} StripNameOf(d: string, n: string)
    requires '/' !in n
    ensures StripName(d + "/" + n) == d + "/"
    decreases |n|
  {
    if n == "" {
      assert d + "/" + n == d + "/";
    } else {
      var n' := n[..|n| - 1];
      assert (d + "/" + n)[..|d + "/" + n| - 1] == d + "/" + n';
      assert n[|n| - 1] in n;
      StripNameOf(d, n');
    }
  }

  lemma StripOneSlash(d: string)
    requires d != "" && d[|d| - 1] != '/'
    ensures StripSlashes(d + "/") == d
  {
    assert (d + "/")[..|d|] == d;
  }

  lemma StripTwoSlashes(d: string)
    requires d != "" && d[|d| - 1] != '/'
    ensures StripSlashes(d + "//") == d
  {
    assert (d + "//")[..|d| + 1] == d + "/";
    StripOneSlash(d);
  }

  /** A path `d/n` whose directory part does not end in `/` splits into
      `dirname` `d` and base name `n`. */
  lemma DirnameOfJoin(d: string, n: string)
    requires d != "" && d[|d| - 1] != '/'
    requires n != "" && '/' !in n
    ensures Dirname(d + "/" + n) == d
    ensures Basename(d + "/" + n) == n
  {
    var p := d + "/" + n;
    assert p[|p| - 1] == n[|n| - 1];
    assert n[|n| - 1] in n;
    StripNameOf(d, n);
    StripOneSlash(d);
    AfterLastConcat(d + "/", n, '/');
    AfterLastSnoc(d, '/', '/');
  }

  /** With a doubled slash before the name, `dirname` drops both slashes. */
  lemma DirnameOfDoubled(d: string, n: string)
    requires d != "" && d[|d| - 1] != '/'
    requires n != "" && '/' !in n
    ensures Dirname(d + "//" + n) == d
    ensures Basename(d + "//" + n) == n
  {
    var p := d + "//" + n;
    assert p == (d + "/") + "/" + n;
    assert p[|p| - 1] == n[|n| - 1];
    assert n[|n| - 1] in n;
    StripNameOf(d + "/", n);
    StripTwoSlashes(d);
    assert (d + "/") + "/" == d + "//";
    AfterLastConcat((d + "/") + "/", n, '/');
    AfterLastSnoc(d + "/", '/', '/');
  }
}

=== FILE: pcre.dfy ===
/** The three kinds of regular expression the modelled code matches, with the
    PCRE semantics PHP's `preg_match` gives them. */
module Pcre {
  import opened Strings
  import opened Results

  /** Where PCRE's `$` succeeds when neither the D nor the m modifier is given:
      at the end of the subject, and just before a newline that ends it. */
  predicate DollarAt(s: string, e: nat) {
    e == |s| || (e + 1 == |s| && s[e] == '\n')
  }

  /** `preg_match('/\/$/', s)`: a `/` right before a position where `$` succeeds. */
  predicate SlashAtEnd(s: string) {
    (|s| >= 1 && s[|s| - 1] == '/') || (|s| >= 2 && s[|s| - 2] == '/' && s[|s| - 1] == '\n')
  }

  /** A non-empty word of lower-case ASCII letters, as the alternatives of the patterns are. */
  predicate IsLowerWord(w: string) {
    |w| > 0 && forall i :: 0 <= i < |w| ==> 'a' <= w[i] <= 'z'
  }

  /** The only position where `$` can follow a letter. */
  function LetterEnd(s: string): (e: nat)
    ensures e <= |s| && DollarAt(s, e)
  {
    if |s| > 0 && s[|s| - 1] == '\n' then |s| - 1 else |s|
  }

  /** `.w` under the `is` modifiers, ending at `e`: any one character (the `s`
      modifier lets `.` match a newline too), then `w` ignoring ASCII case. */
  predicate AnyThenAt(s: string, e: nat, w: string) {
    |w| < e <= |s| && Lower(s[e - |w|..e]) == w
  }

  lemma OnlyLetterEnd(s: string, w: string)
    requires IsLowerWord(w)
    ensures forall e: nat :: DollarAt(s, e) && AnyThenAt(s, e, w) ==> e == LetterEnd(s)
  {
    forall e: nat | DollarAt(s, e) && AnyThenAt(s, e, w)
      ensures e == LetterEnd(s)
    {
      var l := Lower(s[e - |w|..e]);
      assert l[|w| - 1] == w[|w| - 1];
    }
  }

  /** `preg_match('/(.w1|.w2)$/is', s, $m)`, giving the matched text `$m[0]`.
      Both alternatives can only end at `LetterEnd(s)`; the match that starts
      further left wins, and on a tie the first alternative. */
  function MatchAltAtEnd(s: string, w1: string, w2: string): (r: Option<string>)
    requires IsLowerWord(w1) && IsLowerWord(w2)
    ensures r.Some? ==> IsSuffix(r.value, s[..LetterEnd(s)])
    ensures r.Some? ==>
              || (|r.value| == |w1| + 1 && Lower(r.value)[1..] == w1)
              || (|r.value| == |w2| + 1 && Lower(r.value)[1..] == w2)
  {
    var e := LetterEnd(s);
    var m1 := AnyThenAt(s, e, w1);
    var m2 := AnyThenAt(s, e, w2);
    if m1 && (!m2 || |w1| >= |w2|) then
      assert Lower(s[e - |w1| - 1..e])[1..] == Lower(s[e - |w1|..e]);
      Some(s[e - |w1| - 1..e])
    else if m2 then
      assert Lower(s[e - |w2| - 1..e])[1..] == Lower(s[e - |w2|..e]);
      Some(s[e - |w2| - 1..e])
    else None
  }

  /** The pattern matches exactly when some position where `$` succeeds is
      preceded by any character and one of the two words. */
  lemma MatchAltAtEndMeaning(s: string, w1: string, w2: string)
    requires IsLowerWord(w1) && IsLowerWord(w2)
    ensures MatchAltAtEnd(s, w1, w2).Some?
        <==> exists e: nat :: DollarAt(s, e) && (AnyThenAt(s, e, w1) || AnyThenAt(s, e, w2))
  {
    OnlyLetterEnd(s, w1);
    OnlyLetterEnd(s, w2);
    if MatchAltAtEnd(s, w1, w2).Some? {
      assert DollarAt(s, LetterEnd(s));
    }
  }
}

=== FILE: php_array.dfy ===
/** A PHP associative array: an ordered list of entries with unique keys, where
    assigning to an existing key keeps the key's position. */
module PhpArray {

  datatype Entry<K, V> = Entry(key: K, value: V)

  function Keys<K, V>(a: seq<Entry<K, V>>): (r: seq<K>)
    ensures |r| == |a|
    ensures forall i :: 0 <= i < |a| ==> r[i] == a[i].key
  {
    seq(|a|, i requires 0 <= i < |a| => a[i].key)
  }

  function Values<K, V>(a: seq<Entry<K, V>>): (r: seq<V>)
    ensures |r| == |a|
    ensures forall i :: 0 <= i < |a| ==> r[i] == a[i].value
  {
    seq(|a|, i requires 0 <= i < |a| => a[i].value)
  }

  predicate UniqueKeys<K(==), V>(a: seq<Entry<K, V>>) {
    forall i, j :: 0 <= i < j < |a| ==> a[i].key != a[j].key
  }

  predicate NoDuplicates<T(==)>(xs: seq<T>) {
    forall i, j :: 0 <= i < j < |xs| ==> xs[i] != xs[j]
  }

  /** The position of key `k`. */
  function IndexOfKey<K(==), V>(a: seq<Entry<K, V>>, k: K): (i: nat)
    requires k in Keys(a)
    ensures i < |a| && a[i].key == k
  {
    if a[0].key == k then 0
    else
      assert Keys(a) == [a[0].key] + Keys(a[1..]);
      1 + IndexOfKey(a[1..], k)
  }

  /** `$a[$k] = $v`: replaces the value in place when `k` is already a key,
      appends a new entry otherwise. */
  function Put<K(==), V(==)>(a: seq<Entry<K, V>>, k: K, v: V): (r: seq<Entry<K, V>>)
    ensures Keys(r) == if k in Keys(a) then Keys(a) else Keys(a) + [k]
    ensures k !in Keys(a) ==> r == a + [Entry(k, v)]
    ensures Entry(k, v) in r
    ensures forall i :: 0 <= i < |r| ==> r[i] == Entry(k, v) || r[i] in a
    ensures UniqueKeys(a) ==> UniqueKeys(r)
  {
    if k in Keys(a) then
      var r := a[IndexOfKey(a, k) := Entry(k, v)];
      assert Keys(r) == Keys(a);
      r
    else
      var r := a + [Entry(k, v)];
      assert Keys(r) == Keys(a) + [k];
      assert forall i :: 0 <= i < |a| ==> a[i].key != k by {
        forall i | 0 <= i < |a| ensures a[i].key != k {
          assert Keys(a)[i] == a[i].key;
        }
      }
      r
  }

  /** Reference definition of first-occurrence deduplication: each element is
      kept at the position where it first appears. */
  function Distinct<T(==)>(xs: seq<T>): (r: seq<T>)
    ensures forall i :: 0 <= i < |r| ==> r[i] in xs
    ensures forall i :: 0 <= i < |xs| ==> xs[i] in r
    ensures NoDuplicates(r)
    ensures |r| <= |xs|
  {
    if |xs| == 0 then []
    else
      var d := Distinct(xs[..|xs| - 1]);
      var x := xs[|xs| - 1];
      assert xs == xs[..|xs| - 1] + [x];
      if x in d then d else d + [x]
  }

  lemma DistinctSnoc<T>(xs: seq<T>, x: T)
    ensures Distinct(xs + [x]) == if x in Distinct(xs) then Distinct(xs) else Distinct(xs) + [x]
  {
    assert (xs + [x])[..|xs|] == xs;
  }
}

=== FILE: results.dfy ===
/** Optional values and fallible results, used for PHP's `false` returns and for
    the exceptions and `exit(1)` calls of the modelled code. */
module Results {

  datatype Option<+T> = None | Some(value: T)

  datatype Result<+T, +E> = Success(value: T) | Failure(error: E) {

    predicate IsFailure() {
      Failure?
    }

    function PropagateFailure<U>(): Result<U, E>
      requires Failure?
    {
      Failure(error)
    }

    function Extract(): T
      requires Success?
    {
      value
    }
  }
}

=== FILE: strings.dfy ===
/** String helpers standing in for the PHP built-ins the modelled code uses.
    A PHP string is modelled as a `seq<char>`, one character per byte. */
module Strings {

  predicate IsPrefix(p: string, s: string) {
    |p| <= |s| && s[..|p|] == p
  }

  predicate IsSuffix(p: string, s: string) {
    |p| <= |s| && s[|s| - |p|..] == p
  }

  lemma PrefixOfConcat(a: string, b: string)
    ensures IsPrefix(a, a + b)
  {
    assert (a + b)[..|a|] == a;
  }

  /** PHP's truthiness of a string: only "" and "0" are false. */
  predicate IsPhpFalsy(s: string) {
    s == "" || s == "0"
  }

  /** Unanchored search for a literal `w` anywhere in `s`. */
  predicate Contains(s: string, w: string) {
    exists i :: 0 <= i <= |s| && IsPrefix(w, s[i..])
  }

  lemma ContainsInfix(a: string, w: string, b: string)
    ensures Contains(a + w + b, w)
  {
    assert (a + w + b)[|a|..] == w + b;
    assert (w + b)[..|w|] == w;
  }

  lemma ContainsSuffix(a: string, w: string)
    ensures Contains(a + w, w)
  {
    assert (a + w)[|a|..] == w;
  }

  /** The text after the last `c` in `s` (all of `s` when there is none). */
  function AfterLast(s: string, c: char): (r: string)
    ensures IsSuffix(r, s)
    ensures c !in r
    ensures c in s ==> |r| < |s| && s[|s| - |r| - 1] == c
    ensures c !in s ==> r == s
  {
    if |s| == 0 then ""
    else if s[|s| - 1] == c then ""
    else AfterLast(s[..|s| - 1], c) + [s[|s| - 1]]
  }

  lemma AfterLastSnoc(x: string, d: char, c: char)
    ensures AfterLast(x + [d], c) == if d == c then "" else AfterLast(x, c) + [d]
  {
    assert (x + [d])[..|x|] == x;
  }

  lemma Assoc(a: string, b: string, c: string)
    ensures (a + b) + c == a + (b + c)
  {
  }

  lemma SnocAssoc(a: string, b: string, d: char)
    ensures (a + b) + [d] == a + (b + [d])
  {
  }

  lemma LastSplit(u: string, c: char)
    requires |u| > 0 && c !in u
    ensures u == u[..|u| - 1] + [u[|u| - 1]]
    ensures c !in u[..|u| - 1] && u[|u| - 1] != c
  {
  }

  /** Text without `c` appended after `s` stays after the last `c`. */
  lemma {:induction false} AfterLastConcat(s: string, u: string, c: char)
    requires c !in u
    ensures AfterLast(s + u, c) == AfterLast(s, c) + u
    decreases |u|
  {
    if |u| == 0 {
      assert s + u == s;
      assert AfterLast(s, c) + u == AfterLast(s, c);
    } else {
      var u', d := u[..|u| - 1], u[|u| - 1];
      LastSplit(u, c);
      AfterLastConcat(s, u', c);
      AfterLastSnoc(s + u', d, c);
      SnocAssoc(s, u', d);
      SnocAssoc(AfterLast(s, c), u', d);
    }
  }

  /** The text before the first `c` in `s`: `explode(c, s)[0]`. */
  function BeforeFirst(s: string, c: char): (r: string)
    ensures IsPrefix(r, s)
    ensures c !in r
    ensures |r| < |s| ==> s[|r|] == c
  {
    if |s| == 0 || s[0] == c then ""
    else [s[0]] + BeforeFirst(s[1..], c)
  }

  lemma {:induction false} BeforeFirstOfJoin(a: string, c: char, b: string)
    requires c !in a
    ensures BeforeFirst(a + [c] + b, c) == a
  {
    if |a| == 0 {
      assert a + [c] + b == [c] + b;
    } else {
      assert (a + [c] + b)[1..] == a[1..] + [c] + b;
      BeforeFirstOfJoin(a[1..], c, b);
      assert [a[0]] + a[1..] == a;
    }
  }

  /** The text after the first `c` in `s`: what `explode(c, s)` puts after its
      first element, joined back; "" when `s` has no `c`. */
  function AfterFirst(s: string, c: char): (r: string)
    ensures c in s ==> s == BeforeFirst(s, c) + [c] + r
    ensures c !in s ==> r == ""
  {
    if |s| == 0 then ""
    else if s[0] == c then s[1..]
    else
      var r := AfterFirst(s[1..], c);
      assert s == [s[0]] + s[1..];
      r
  }

  lemma AfterFirstOfJoin(a: string, c: char, b: string)
    requires c !in a
    ensures AfterFirst(a + [c] + b, c) == b
  {
    var s := a + [c] + b;
    BeforeFirstOfJoin(a, c, b);
    assert s[|a|] == c;
    var r := AfterFirst(s, c);
    assert s == a + [c] + r;
    assert s[|a| + 1..] == b;
    assert (a + [c] + r)[|a| + 1..] == r;
  }

  function DigitChar(d: nat): (c: char)
    requires d < 10
    ensures '0' <= c <= '9'
  {
    (48 + d) as char
  }

  /** Decimal rendering of a non-negative PHP integer, as string concatenation does it. */
  function NatToString(n: nat): (r: string)
    ensures |r| >= 1
    ensures forall i :: 0 <= i < |r| ==> '0' <= r[i] <= '9'
    decreases n
  {
    (if n < 10 then "" else NatToString(n / 10)) + [DigitChar(n % 10)]
  }

  lemma {:induction false} NatToStringInjective(a: nat, b: nat)
    requires NatToString(a) == NatToString(b)
    ensures a == b
    decreases a
  {
    var sa, sb := NatToString(a), NatToString(b);
    assert sa[|sa| - 1] == DigitChar(a % 10);
    assert sb[|sb| - 1] == DigitChar(b % 10);
    assert a % 10 == b % 10;
    var pa := if a < 10 then "" else NatToString(a / 10);
    var pb := if b < 10 then "" else NatToString(b / 10);
    assert sa[..|sa| - 1] == pa;
    assert sb[..|sb| - 1] == pb;
    if a >= 10 && b >= 10 {
      NatToStringInjective(a / 10, b / 10);
    }
  }

  /** ASCII case folding, as PCRE's `i` modifier applies it outside UTF mode. */
  function LowerAscii(c: char): char {
    if 'A' <= c <= 'Z' then (c as int + 32) as char else c
  }

  function Lower(s: string): (r: string)
    ensures |r| == |s|
  {
    seq(|s|, i requires 0 <= i < |s| => LowerAscii(s[i]))
  }
}
